=== FILE: README.md ===
# Mushroom farm ledger: a Dafny model of the ledger and metrics core

The application is a small bookkeeping tool for a mushroom farm. It
records money movements and production batches. Each transaction is an
`expense`, a `funding` or a `revenue` row with a debit and a credit
amount. Each batch moves through a six-step lifecycle and collects
harvest weigh-ins graded A, B, C or Waste.

This project models the pure logic inside the screens and the SQL
adapter, and proves what that logic computes:

- `Dashboard`: `calculateStats`. This is one pass over the ledger that
  yields:
  - the cash balance, revenue income, total expense and funding;
  - a month-keyed cash-flow series, sorted ascending by month.
- `BatchDetails`: a batch's linked transactions, total harvest,
  expenses, revenue, profit and biological efficiency; the harvest-log
  add guard; the delete filter.
- `TransactionForm`: the entry form. This covers its validation, the
  debit/credit split by type, the edit-mode load and re-save, and the
  category-reset and subcategory-lookup rules.
- `TransactionList`: the history screen's search box and type filter.
- `BatchForm`: the new-batch schema, the lifecycle status names, and
  how an optional quantity defaults to 0.
- `TursoAdapter`: the dynamic `UPDATE … SET` builder and the numeric
  coercion of fetched rows.
- `Constants`: the transaction types and the category rule tables.

Supporting modules:

- `Wrappers`: `Option` and `Result`.
- `JsValues`: JavaScript's `Number(...)` conversion on the values
  storage returns.
- `Text`: `toLowerCase`, `includes`, and the string order used by
  `sort()`.
- `Seqs`: filters, left-fold sums, and sums grouped by key.

Modelling choices:

- Amounts and weights are exact `real`s.
- The result of `Number(x)` is `JsNumber`, which is either `Finite(r)`
  or `NaN`.
- A stored field whose type is not fixed is a `Value`: a number, a
  string, `null` or `undefined`.
- The dashboard's `Number(x) || 0` is `JsValues.Coerce`.

Each screen's behaviour is given two ways:

- as an algorithm, such as the `forEach` loop in
  `Dashboard.Accumulate`;
- as an independent meaning, such as `Dashboard.IsSummaryOf` (sums over
  the whole ledger) or `Dashboard.IsChartOf` (one point per month that
  has rows, strictly ascending, with that month's totals).

The lemmas then connect the two.

## Model

| member | source | states |
|---|---|---|
| JsValues.Coerce | src/features/dashboard/Dashboard.tsx:49-50 | An amount that is not a number reads as 0; a numeric amount reads as itself |
| JsValues.ToNumberIdempotent | src/lib/db/adapters/TursoAdapter.ts:19-20 | Converting an already converted amount again changes neither the number nor its `Number(x) or 0` reading |
| JsValues.WholeNumberRoundTrip | src/features/transactions/TransactionForm.tsx:96-97 | A whole amount shown as its decimal digits converts back to the same number |
| JsValues.DigitsRoundTrip | src/features/transactions/TransactionForm.tsx:21 | A string of decimal digits reads as the number those digits spell |
| JsValues.DecimalTextExample | src/features/transactions/TransactionForm.tsx:21 | "12.5" reads as 12.5 |
| JsValues.PaddedTextExample | src/features/transactions/TransactionForm.tsx:21 | Surrounding whitespace is ignored: " 40 " reads as 40 |
| JsValues.SignedTextExamples | src/features/transactions/TransactionForm.tsx:21 | The empty text reads as 0 and "-3" as -3 |
| JsValues.NonNumericTextExamples | src/features/dashboard/Dashboard.tsx:49-50 | "abc" and "." are NaN, and the `Number(x) or 0` reading of them, of `null` and of `undefined` is 0 |
| Constants.ParseType | src/lib/constants.ts:1 | A string denotes a type exactly when it is that type's name |
| Constants.TypeNameRoundTrip | src/lib/constants.ts:1 | Every type parses back from its name |
| Constants.TransactionTypesComplete | src/lib/constants.ts:3-7 | The type options list every type, each exactly once |
| Constants.Categories | src/lib/constants.ts:9-31 | Every type has a non-empty category list with no duplicates, and "Other" is in each |
| Constants.SubcategoriesBelongToExpenses | src/lib/constants.ts:35-39 | Every key of the subcategory table is an expense category with at least one suggestion |
| Text.Lower | src/features/transactions/TransactionList.tsx:57 | Lower-casing keeps the length and maps each character on its own |
| Text.LowerIdempotent | src/features/transactions/TransactionList.tsx:57-59 | Lower-casing twice is lower-casing once |
| Text.ContainsIffOccurs | src/features/transactions/TransactionList.tsx:57-59 | The left-to-right search finds a substring exactly when it occurs at some index |
| Text.ContainsEmpty | src/features/transactions/TransactionList.tsx:57 | Every string includes the empty string |
| Text.LessTransitive | src/features/dashboard/Dashboard.tsx:86 | The string order used by `sort()` is transitive |
| Text.LessTotal | src/features/dashboard/Dashboard.tsx:86 | Any two distinct strings are ordered one way or the other |
| Text.Insert | src/features/dashboard/Dashboard.tsx:86 | Inserting a new key into a strictly ascending list keeps it strictly ascending and adds exactly that key |
| Text.SortedUnique | src/features/dashboard/Dashboard.tsx:86 | Two strictly ascending lists with the same elements are equal |
| Text.SortKeys | src/features/dashboard/Dashboard.tsx:86 | The sorted key list is strictly ascending and has exactly the keys of the map |
| Seqs.FilterKeeps | src/features/batches/BatchDetails.tsx:39 | A filter keeps the kept elements with their multiplicities and in their original order |
| Seqs.FilterPointwise | src/features/transactions/TransactionList.tsx:55-64 | Two tests that agree on every element of a list keep the same elements |
| Seqs.SumPermutation | src/features/dashboard/Dashboard.tsx:48-60 | A sum over the list does not depend on the list's order |
| Seqs.GroupTotalsPartition | src/features/dashboard/Dashboard.tsx:63-71 | The per-key totals, added over all keys, give the total over all keyed rows |
| Dashboard.MonthKey | src/features/dashboard/Dashboard.tsx:64 | The month key is the date's prefix of at most 7 characters, the whole date when it is shorter |
| Dashboard.MonthOf | src/features/dashboard/Dashboard.tsx:63-64 | A row is charted under a month exactly when its date is present and non-empty |
| Dashboard.SummaryStep | src/features/dashboard/Dashboard.tsx:52-60 | One more row adds its debit, credit, revenue credit and funding credit to the totals |
| Dashboard.AddToMonthKeeps | src/features/dashboard/Dashboard.tsx:63-71 | A dated row creates or updates its month's entry only: expense rows add debit to Expense, other rows add credit to Income |
| Dashboard.MonthlyAddKeeps | src/features/dashboard/Dashboard.tsx:63-71 | Folding one more row into a month map that describes the earlier rows gives a map that describes all of them |
| Dashboard.UndatedKeeps | src/features/dashboard/Dashboard.tsx:63 | An undated row leaves the month map unchanged |
| Dashboard.Accumulate | src/features/dashboard/Dashboard.tsx:40-73 | The loop yields the summary sums and one month entry per charted month, holding that month's totals |
| Dashboard.BuildChart | src/features/dashboard/Dashboard.tsx:86-91 | The series has one point per map key, strictly ascending, each with that key's totals |
| Dashboard.CalculateStats | src/features/dashboard/Dashboard.tsx:39-93 | Balance is all credit minus all debit; income is revenue credit; expense is every debit; funding is funding credit; the series is as `IsChartOf` says |
| Dashboard.SeriesTotals | src/features/dashboard/Dashboard.tsx:63-91 | The series' Income adds up to the credit of all dated non-expense rows, its Expense to the debit of all dated expense rows |
| Dashboard.EmptyLedger | src/features/dashboard/Dashboard.tsx:40-92 | No rows give four zeros and an empty series |
| Dashboard.UndatedRow | src/features/dashboard/Dashboard.tsx:52-63 | An undated row counts in the totals but leaves the series as it is |
| Dashboard.SameReadingSameMonth | src/features/dashboard/Dashboard.tsx:48-71 | Rows that read the same give every month the same totals and chart the same months |
| Dashboard.SameReadingSameStats | src/features/dashboard/Dashboard.tsx:48-71 | Rows that read the same give the same figures and series |
| Dashboard.NonNumericDebitIsZero | src/features/dashboard/Dashboard.tsx:49-52 | A non-numeric debit counts exactly as a debit of 0 |
| Dashboard.StatsOrderIndependent | src/features/dashboard/Dashboard.tsx:48-91 | Any permutation of the ledger gives the same summary and the same series |
| Dashboard.SeriesMatchesSummary | src/features/dashboard/Dashboard.tsx:52-82 | For dated rows entered through the form, series Income is revenue plus funding and series Expense is the expense figure |
| Dashboard.ExampleSummary | src/features/dashboard/Dashboard.tsx:76-83 | Worked example of the four figures |
| Dashboard.ExampleMonths | src/features/dashboard/Dashboard.tsx:63-64 | Worked example of month keys, including an undated row |
| Dashboard.ExampleChartMonths | src/features/dashboard/Dashboard.tsx:63-64 | The example ledger charts exactly the months 2024-01 and 2024-02 |
| Dashboard.ExampleMonthTotals | src/features/dashboard/Dashboard.tsx:63-71 | Worked example of each month's income and expense totals |
| Dashboard.ExampleChart | src/features/dashboard/Dashboard.tsx:86-91 | Worked example of the series |
| BatchDetails.LinkedTransactions | src/features/batches/BatchDetails.tsx:39 | Exactly the rows that reference the batch, with their multiplicities, in ledger order |
| BatchDetails.TotalHarvested | src/features/batches/BatchDetails.tsx:88 | Total harvest is the sum of the A, B, C and Waste totals |
| BatchDetails.Efficiency | src/features/batches/BatchDetails.tsx:94-96 | The result is the efficiency `IsEfficiency` describes: times the substrate quantity it is harvest times 100 when that quantity is a positive number, and it is 0 otherwise |
| BatchDetails.ComputeMetrics | src/features/batches/BatchDetails.tsx:87-96 | Expenses are the debits of expense rows, revenue the credits of revenue rows, profit the difference, with the efficiency guard |
| BatchDetails.MetricsFromLedger | src/features/batches/BatchDetails.tsx:39-90 | Over the whole ledger, only rows linked to the batch count |
| BatchDetails.FundingIgnored | src/features/batches/BatchDetails.tsx:89-90 | A linked funding row changes none of the batch's figures |
| BatchDetails.EmptyBatch | src/features/batches/BatchDetails.tsx:88-96 | No logs and no rows give all zeros |
| BatchDetails.MetricExamples | src/features/batches/BatchDetails.tsx:94-96 | 10 kg from 40 kg of substrate is 25; a zero or missing quantity gives 0 |
| BatchDetails.ProfitMayBeNegative | src/features/batches/BatchDetails.tsx:91 | Profit is not clamped at zero |
| BatchDetails.DeleteHarvestLog | src/features/batches/BatchDetails.tsx:78 | Logs with the deleted id are gone; every other log stays with its multiplicity and order |
| BatchDetails.HarvestSubmission | src/features/batches/BatchDetails.tsx:48-61 | No log is created without a batch id or with an empty weight; otherwise the log has today's date, the weight, the grade and empty notes |
| BatchDetails.WholeWeightSubmission | src/features/batches/BatchDetails.tsx:48-57 | A weight typed as the digits of a whole number gives a draft for that batch carrying exactly that number of kilograms |
| BatchDetails.StoreDraft | src/features/batches/BatchDetails.tsx:52-58 | The stored log keeps the draft's batch, grade and weight under the id storage assigns |
| BatchDetails.LoggedHarvestAddsWeight | src/features/batches/BatchDetails.tsx:64-88 | If the refreshed log list is the earlier logs plus the stored one, the total harvest, and its grade's total, rise by exactly the weight logged |
| BatchDetails.WholeWeightRaisesTotal | src/features/batches/BatchDetails.tsx:48-88 | Entering a whole weight for a batch gives a draft for that batch, and if storage keeps it and the refresh returns the earlier logs plus the stored one, the total harvest rises by the weight entered |
| TransactionForm.FormErrors | src/features/transactions/TransactionForm.tsx:15-25 | A form passes exactly when date, category and description are non-empty, the type is a type name and the amount is valid |
| TransactionForm.DefaultsNeedDetails | src/features/transactions/TransactionForm.tsx:37-46 | A fresh form lacks exactly a category, a description and an amount |
| TransactionForm.WholeAmountAccepted | src/features/transactions/TransactionForm.tsx:21-23 | A whole amount is accepted exactly when it is positive |
| TransactionForm.Submit | src/features/transactions/TransactionForm.tsx:116-128 | An invalid form reports its errors. A valid one puts the amount on the side its type uses, 0 on the other, copies the text fields and defaults notes to "" |
| TransactionForm.OrNull | src/lib/db/adapters/TursoAdapter.ts:56-60 | A value is stored as null exactly when it is the empty string; a stored value reads back as the original text |
| TransactionForm.Insert | src/lib/db/adapters/TursoAdapter.ts:51-62 | The inserted row keeps the type and both amounts |
| TransactionForm.InsertedSidesMatch | src/features/transactions/TransactionForm.tsx:116-128 | A saved entry has its amount only on the side its type uses |
| TransactionForm.EditLoadRoundTrip | src/features/transactions/TransactionForm.tsx:90-98 | Loading a saved entry gives back the entered fields and the amount |
| TransactionForm.EditForm | src/features/transactions/TransactionForm.tsx:54-62 | After a load, the category effect keeps a category the type offers (with its subcategory) and clears any other |
| TransactionForm.EditResubmitRoundTrip | src/features/transactions/TransactionForm.tsx:54-128 | Saving a loaded entry unchanged reproduces the original payload when its category is one its type offers and the amount text reads back as the amount |
| TransactionForm.EditClearsForeignCategory | src/features/transactions/TransactionForm.tsx:54-62 | A saved entry whose category its type does not offer has the category cleared on load, and the unchanged re-save is refused for a missing category |
| TransactionForm.EditResubmitWholeAmount | src/features/transactions/TransactionForm.tsx:90-128 | For a whole amount shown as its digits, re-saving a loaded entry with an offered category reproduces the payload |
| TransactionForm.EditResubmitExample | src/features/transactions/TransactionForm.tsx:90-128 | A wage expense of 5 survives the edit round trip unchanged |
| TransactionForm.EditForeignCategoryExample | src/features/transactions/TransactionForm.tsx:54-62 | An expense filed under "Loan" saves, but its unchanged re-save after loading is refused |
| TransactionForm.CategoriesFor | src/features/transactions/TransactionForm.tsx:55 | A type string offers its category list, any other string none (prototype-member names excepted, see "Left out") |
| TransactionForm.ResetCategory | src/features/transactions/TransactionForm.tsx:54-62 | An allowed category is kept; any other clears category and subcategory |
| TransactionForm.ResetCategoryIdempotent | src/features/transactions/TransactionForm.tsx:54-62 | The reset is idempotent, and no type allows the empty category |
| TransactionForm.SubcategoryOptions | src/features/transactions/TransactionForm.tsx:65-71 | A category with a table entry offers that entry, any other category none (prototype-member names excepted, see "Left out") |
| TransactionForm.SubcategoriesOnlyForExpenses | src/features/transactions/TransactionForm.tsx:65-71 | A funding or revenue category never offers subcategories |
| TransactionList.FilterTransactions | src/features/transactions/TransactionList.tsx:55-64 | A row is shown exactly when it matches the search and the type filter |
| TransactionList.ShownInLedgerOrder | src/features/transactions/TransactionList.tsx:55-64 | The shown rows are a subsequence of the ledger, and every matching row is shown exactly as often as the ledger holds it |
| TransactionList.FilterTwice | src/features/transactions/TransactionList.tsx:55-64 | Filtering the shown rows again changes nothing |
| TransactionList.NoFilterShowsAll | src/features/transactions/TransactionList.tsx:56-61 | An empty search with "all" shows every row |
| TransactionList.TypeFilterSelects | src/features/transactions/TransactionList.tsx:61 | A specific filter shows only rows of that type; an unknown one shows none |
| TransactionList.SearchIgnoresCase | src/features/transactions/TransactionList.tsx:56-59 | Lower-casing the search term changes nothing |
| TransactionList.MissingNotesNeverMatch | src/features/transactions/TransactionList.tsx:59 | Without notes, a row matches only through description or category |
| BatchForm.ParseStatus | src/features/batches/BatchForm.tsx:15 | A string is a status exactly when it is that status's name, exactly when it is in `STATUSES` |
| BatchForm.StatusNamesRoundTrip | src/features/batches/BatchForm.tsx:15-29 | Every status parses back from its name; `STATUSES` lists the six names in lifecycle order |
| BatchForm.FormErrors | src/features/batches/BatchForm.tsx:12-23 | A form passes exactly when name, type, start and target dates are non-empty and the status is valid |
| BatchForm.DefaultsNeedNameAndTarget | src/features/batches/BatchForm.tsx:37-48 | A fresh form lacks exactly a name and a target date; its status `preparation` is valid |
| BatchForm.QtyFromInput | src/features/batches/BatchForm.tsx:64-66 | A missing or empty quantity is 0; any other text is `Number(text)` |
| BatchForm.WholeQtyRoundTrip | src/features/batches/BatchForm.tsx:64 | A quantity given as whole-number digits is stored as that number |
| BatchForm.Submit | src/features/batches/BatchForm.tsx:56-68 | An invalid form reports its errors. A valid one creates a batch whose type is the mushroom type, with the status entered, quantities defaulted and no harvest date |
| BatchForm.BlankSubstrateNoEfficiency | src/features/batches/BatchForm.tsx:64 | A batch created without a substrate quantity always shows efficiency 0 |
| BatchForm.WholeSubstrateEfficiency | src/features/batches/BatchForm.tsx:64 | A batch created with a positive whole substrate quantity shows harvest per 100 units of it |
| TursoAdapter.BuildUpdate | src/lib/db/adapters/TursoAdapter.ts:89-111 | No query when nothing survives. Otherwise one more argument than SET items, with the target id last |
| TursoAdapter.UpdateFollowsPatch | src/lib/db/adapters/TursoAdapter.ts:95-104 | SET items and arguments are exactly the surviving entries, in patch order |
| TursoAdapter.ProtectedColumnsUntouched | src/lib/db/adapters/TursoAdapter.ts:96 | `id` and `created_at` are never assigned |
| TursoAdapter.TemplatePlaceholders | src/lib/db/adapters/TursoAdapter.ts:106-111 | The fixed statement text holds only the WHERE clause's placeholder |
| TursoAdapter.PlaceholdersMatchArgs | src/lib/db/adapters/TursoAdapter.ts:97-111 | When no column name holds a `?`, placeholders and arguments are equal in number |
| TursoAdapter.CoerceRow | src/lib/db/adapters/TursoAdapter.ts:11-23 | A fetched row has all listed columns; debit and credit become numbers; the rest pass through |
| TursoAdapter.CoerceRowIdempotent | src/lib/db/adapters/TursoAdapter.ts:19-20 | Mapping twice is mapping once, and the `Number(x) or 0` reading of the amounts is unchanged |

## Left out

- Storage I/O is not modelled. This covers SQL execution, the other two
  storage back ends, network calls, `crypto.randomUUID` and
  `new Date()`. Ids and today's date are parameters.
- The UI is not modelled: React rendering, state, navigation, and
  concurrent loading with `Promise.all`.
- `String(...)`, `toFixed` and `toLocaleString` formatting is not
  modelled. `TransactionForm.EditResubmitRoundTrip` takes the displayed
  amount text as a parameter and assumes that it reads back as the
  amount. `JsValues.WholeNumberRoundTrip` discharges that assumption
  for whole amounts below 10^21 only, as
  `TransactionForm.EditResubmitWholeAmount` states.
- JsValues.NatString: is what `String(n)` prints only for
  0 <= n < 10^21. From 10^21 on, JavaScript prints exponent form
  (`"1e+21"`), which the modelled `StringToNumber` reads as NaN, so
  `JsValues.WholeNumberRoundTrip` says nothing about `String(n)` there.
- JsValues.StringToNumber: covers only part of JavaScript's number
  parsing. It handles trimming, the empty text, a sign, digits and a
  decimal fraction. Exponents, hexadecimal, binary, octal and
  `Infinity` text read as NaN here, although JavaScript accepts them.
- JsValues.IsSpace: covers the common whitespace characters only, not
  every Unicode space that `trim` removes.
- Floating-point rounding, infinities and `-0` are not modelled.
  Amounts are exact reals.
- Text.Lower: maps only the ASCII letters. Other scripts' case
  mappings are not modelled.
- Text.Less: compares code points. JavaScript's `sort()` compares
  UTF-16 code units, so the two orders can differ outside the Basic
  Multilingual Plane. ISO month keys are ASCII.
- The month map is modelled as a map. The source uses an object, so a
  7-character key that names an `Object.prototype` member (`valueOf`)
  would behave differently there. Real dates never produce such keys.
- TransactionForm.CategoriesFor: models `CATEGORIES[type] || []` as a
  map lookup. In the source, a type string that names an
  `Object.prototype` member (`"constructor"`) yields that member, not
  [], and the following `includes` call throws. Form types are always
  one of the three names.
- TransactionForm.SubcategoryOptions: models
  `COMMON_SUBCATEGORIES[category]` as a map lookup. In the source, a
  stored free-text category that names an `Object.prototype` member
  (`"toString"`) yields a truthy non-array, and the option `.map`
  fails. The model offers no options there.
- BatchDetails.ComputeMetrics: reads amounts through the dashboard's
  `Number(x) || 0`. The source adds the stored amounts as they are. The
  two agree whenever the stored amounts are numbers. Stored text or
  NaN would be concatenated or propagated in the source.
- BatchDetails.StoreDraft: stores only drafts with a finite weight.
  A weight text that does not parse gives NaN, which the source would
  store; harvest-log weights are exact reals here.
- BatchDetails.StoreDraft: the stored log, and the refreshed list
  being the earlier logs plus that log (used by
  `BatchDetails.LoggedHarvestAddsWeight` and
  `BatchDetails.WholeWeightRaisesTotal`), are assumed storage
  behaviour. No adapter in the program provides it: the
  `DatabaseAdapter` interface (src/lib/db/types.ts:3-8) and all three
  adapters define only the four transaction methods. As written,
  `db.addHarvestLog` (BatchDetails.tsx:52) is not a function, so the
  save throws and the catch alerts "Failed to save harvest log";
  `getBatches` and `getHarvestLogs` (BatchDetails.tsx:32-33) fail the
  same way and leave the screen at "Batch not found", and so does
  `db.addBatch` (BatchForm.tsx:56). The model describes these screens
  as they behave once storage supplies the batch and harvest-log
  methods.
- BatchDetails.Efficiency: states the exact ratio. `toFixed(1)`
  rounding for display is not modelled.
- A transaction's `type` field is the three-valued `TxType`. Rows whose
  stored type is outside the union are not modelled.
- Some record fields are not modelled: `created_at` and `user_id` on
  every record, the optional transaction fields `quantity_kg` and
  `unit_price`, and the batch's cached `total_cost`. No modelled
  computation reads them; batch cost is recomputed from the linked
  transactions.
- `src/lib/constants.ts` declares no `Transaction`, `Batch` or
  `HarvestLog` type, although Dashboard.tsx:4, BatchDetails.tsx:5 and
  src/lib/db/types.ts:1 import them from it. The records' fields here
  follow how the screens and the adapter use them.
- The date-range filter inputs on the history screen are not modelled,
  because they are never connected to the list.

=== FILE: batch_details.dfy ===
/** The batch detail screen's figures: the batch's linked transactions,
    total harvest, expenses, revenue, profit and biological efficiency,
    plus the harvest-log add and delete rules. */
module BatchDetails {

  import opened Wrappers
  import opened JsValues
  import opened Constants
  import opened Domain
  import opened Seqs

  /** The row references batch `batchId` (`t.batch_id === batchId`). */
  function LinkedTo(batchId: string): Transaction -> bool {
    (t: Transaction) => t.batchId == Some(batchId)
  }

  /** The transactions that reference batch `batchId`. */
  function LinkedTransactions(all: seq<Transaction>, batchId: string): (r: seq<Transaction>)
    ensures forall t :: t in r <==> t in all && t.batchId == Some(batchId)
    ensures forall t :: multiset(r)[t] == if t.batchId == Some(batchId) then multiset(all)[t] else 0
    ensures IsSubsequence(r, all)
  {
    FilterKeeps(all, LinkedTo(batchId));
    Filter(all, LinkedTo(batchId))
  }

  datatype BatchMetrics = BatchMetrics(totalHarvested: real, expenses: real, revenue: real, profit: real, efficiency: real)

  function Weight(l: HarvestLog): real {
    l.weightKg
  }

  /** The weight logged under grade `g` alone. */
  function GradeWeight(g: Grade): HarvestLog -> real {
    (l: HarvestLog) => if l.grade == g then l.weightKg else 0.0
  }

  /** Total harvest: every log counts, whatever its grade, Waste included:
      it is the sum of the four per-grade totals. */
  function TotalHarvested(logs: seq<HarvestLog>): (r: real)
    ensures r == Sum(logs, GradeWeight(A)) + Sum(logs, GradeWeight(B))
               + Sum(logs, GradeWeight(C)) + Sum(logs, GradeWeight(Waste))
  {
    var ab: HarvestLog -> real := l => GradeWeight(A)(l) + GradeWeight(B)(l);
    var abc: HarvestLog -> real := l => ab(l) + GradeWeight(C)(l);
    SumAdd(logs, GradeWeight(A), GradeWeight(B), ab);
    SumAdd(logs, ab, GradeWeight(C), abc);
    SumAdd(logs, abc, GradeWeight(Waste), Weight);
    Sum(logs, Weight)
  }

  predicate IsExpense(t: Transaction) {
    t.txType == Expense
  }

  predicate IsRevenue(t: Transaction) {
    t.txType == Revenue
  }

  /** The amounts as numbers. */
  function Debit(t: Transaction): real {
    Coerce(t.debit)
  }

  function Credit(t: Transaction): real {
    Coerce(t.credit)
  }

  /** What one transaction adds to the batch's expenses and revenue. */
  function ExpenseShare(t: Transaction): real {
    if IsExpense(t) then Debit(t) else 0.0
  }

  function RevenueShare(t: Transaction): real {
    if IsRevenue(t) then Credit(t) else 0.0
  }

  function NetShare(t: Transaction): real {
    RevenueShare(t) - ExpenseShare(t)
  }

  /** The substrate quantity passes the guard `qty && qty > 0`: present,
      a number, and positive. */
  predicate PositiveQty(qty: Option<JsNumber>) {
    qty.Some? && qty.value.Finite? && qty.value.value > 0.0
  }

  /** `efficiency` is the biological efficiency in percent of a harvest
      of `totalHarvested` on `substrateQty`: harvest per unit of substrate,
      times 100, or 0 when the substrate quantity is missing, not a
      number, zero or negative. */
  predicate IsEfficiency(efficiency: real, totalHarvested: real, substrateQty: Option<JsNumber>) {
    if PositiveQty(substrateQty) then efficiency * substrateQty.value.value == totalHarvested * 100.0
    else efficiency == 0.0
  }

  function Efficiency(totalHarvested: real, substrateQty: Option<JsNumber>): (r: real)
    ensures IsEfficiency(r, totalHarvested, substrateQty)
  {
    if PositiveQty(substrateQty) then totalHarvested / substrateQty.value.value * 100.0 else 0.0
  }

  /** The figures of the screen: `filter` by type, then `reduce`. */
  function ComputeMetrics(batch: Batch, logs: seq<HarvestLog>, linked: seq<Transaction>): (m: BatchMetrics)
    ensures m.expenses == Sum(linked, ExpenseShare)
    ensures m.revenue == Sum(linked, RevenueShare)
    ensures m.profit == Sum(linked, NetShare)
    ensures m.totalHarvested == Sum(logs, Weight)
    ensures IsEfficiency(m.efficiency, m.totalHarvested, batch.substrateQty)
  {
    var totalHarvested := TotalHarvested(logs);
    var expenses := Sum(Filter(linked, IsExpense), Debit);
    var revenue := Sum(Filter(linked, IsRevenue), Credit);
    var efficiency := Efficiency(totalHarvested, batch.substrateQty);
    FilteredShares(linked);
    NetShares(linked);
    BatchMetrics(totalHarvested, expenses, revenue, revenue - expenses, efficiency)
  }

  /** Filtering by type and then adding equals adding each row's share. */
  lemma FilteredShares(linked: seq<Transaction>)
    ensures Sum(Filter(linked, IsExpense), Debit) == Sum(linked, ExpenseShare)
    ensures Sum(Filter(linked, IsRevenue), Credit) == Sum(linked, RevenueShare)
  {
    SumFilter(linked, IsExpense, Debit);
    SumFilter(linked, IsRevenue, Credit);
    SumPointwise(linked, Masked(IsExpense, Debit), ExpenseShare);
    SumPointwise(linked, Masked(IsRevenue, Credit), RevenueShare);
  }

  /** Revenue minus expenses is the sum of the rows' net shares. */
  lemma NetShares(linked: seq<Transaction>)
    ensures Sum(linked, NetShare) == Sum(linked, RevenueShare) - Sum(linked, ExpenseShare)
  {
    var neg: Transaction -> real := t => -ExpenseShare(t);
    SumAdd(linked, RevenueShare, neg, NetShare);
    SumNegate(linked, ExpenseShare, neg);
  }

  lemma {:induction false} SumNegate(s: seq<Transaction>, f: Transaction -> real, g: Transaction -> real)
    requires forall t :: g(t) == -f(t)
    ensures Sum(s, g) == -Sum(s, f)
  {
    if |s| > 0 {
      SumNegate(s[..|s| - 1], f, g);
    }
  }

  /** The figures computed from the whole ledger: only rows linked to the
      batch count, expense debits as expenses and revenue credits as
      revenue. */
  lemma MetricsFromLedger(batch: Batch, logs: seq<HarvestLog>, all: seq<Transaction>)
    ensures var m := ComputeMetrics(batch, logs, LinkedTransactions(all, batch.id));
      && m.expenses == Sum(all, Masked(LinkedTo(batch.id), ExpenseShare))
      && m.revenue == Sum(all, Masked(LinkedTo(batch.id), RevenueShare))
  {
    SumFilter(all, LinkedTo(batch.id), ExpenseShare);
    SumFilter(all, LinkedTo(batch.id), RevenueShare);
  }

  /** Funding linked to a batch changes none of its figures. */
  lemma FundingIgnored(batch: Batch, logs: seq<HarvestLog>, linked: seq<Transaction>, t: Transaction)
    requires t.txType == Funding
    ensures ComputeMetrics(batch, logs, linked + [t]) == ComputeMetrics(batch, logs, linked)
  {
    assert (linked + [t])[..|linked|] == linked;
  }

  /** A batch with no logs and no transactions shows all zeros. */
  lemma EmptyBatch(batch: Batch)
    ensures ComputeMetrics(batch, [], []) == BatchMetrics(0.0, 0.0, 0.0, 0.0, 0.0)
  {
  }

  /** 10 kg from 40 kg of substrate is 25 %; a zero or missing
      quantity gives 0. */
  lemma MetricExamples()
    ensures Efficiency(10.0, Some(Finite(40.0))) == 25.0
    ensures Efficiency(10.0, Some(Finite(0.0))) == 0.0
    ensures Efficiency(10.0, None) == 0.0
  {
  }

  /** Profit is not clamped: a batch whose only linked row is an expense
      of 500 shows a profit of -500. */
  lemma ProfitMayBeNegative(batch: Batch, logs: seq<HarvestLog>)
    ensures ComputeMetrics(batch, logs,
      [Transaction("t", Some("2024-03-01"), Expense, "Raw Materials", None, "Spawn",
                   Num(Finite(500.0)), Num(Finite(0.0)), None, Some(batch.id))]).profit == -500.0
  {
    var t := Transaction("t", Some("2024-03-01"), Expense, "Raw Materials", None, "Spawn",
                         Num(Finite(500.0)), Num(Finite(0.0)), None, Some(batch.id));
    SumSingleton(t, NetShare);
  }

  function KeptAfterDelete(logId: string): HarvestLog -> bool {
    (l: HarvestLog) => l.id != logId
  }

  /** `harvestLogs.filter(l => l.id !== logId)` after a delete: the logs
      with that id are gone, every other log stays, in order. */
  function DeleteHarvestLog(logs: seq<HarvestLog>, logId: string): (r: seq<HarvestLog>)
    ensures forall l :: l in r ==> l.id != logId
    ensures forall l :: multiset(r)[l] == if l.id != logId then multiset(logs)[l] else 0
    ensures IsSubsequence(r, logs)
  {
    FilterKeeps(logs, KeptAfterDelete(logId));
    Filter(logs, KeptAfterDelete(logId))
  }

  /** The log a harvest entry asks storage to create. */
  datatype HarvestDraft = HarvestDraft(batchId: string, date: string, weightKg: JsNumber, grade: Grade, notes: string)

  /** `handleAddHarvest`: nothing happens without a batch id or with an
      empty weight; otherwise a log for today with the entered weight and
      grade and empty notes. */
  function HarvestSubmission(routeId: Option<string>, weightInput: string, grade: Grade, today: string): (r: Option<HarvestDraft>)
    ensures r.None? <==> routeId.None? || routeId.value == "" || weightInput == ""
    ensures r.Some? ==> r.value == HarvestDraft(routeId.value, today, StringToNumber(weightInput), grade, "")
  {
    if routeId.None? || routeId.value == "" || weightInput == "" then None
    else Some(HarvestDraft(routeId.value, today, StringToNumber(weightInput), grade, ""))
  }

  /** A weight typed as the digits of a whole number is logged as that
      number of kilograms. */
  lemma WholeWeightSubmission(id: string, n: nat, grade: Grade, today: string)
    requires id != ""
    ensures HarvestSubmission(Some(id), NatString(n), grade, today)
      == Some(HarvestDraft(id, today, Finite(n as real), grade, ""))
  {
    WholeNumberRoundTrip(n);
  }

  /** The log storage keeps for a draft, under the id it assigns. */
  function StoreDraft(d: HarvestDraft, logId: string): (l: HarvestLog)
    requires d.weightKg.Finite?
    ensures l.id == logId && l.batchId == d.batchId && l.grade == d.grade
    ensures Finite(l.weightKg) == d.weightKg
  {
    HarvestLog(logId, d.batchId, d.date, d.weightKg.value, d.grade, Some(d.notes))
  }

  /** Logging a harvest raises the batch's total by exactly the weight
      entered, and the grade's own total by the same amount. */
  lemma LoggedHarvestAddsWeight(logs: seq<HarvestLog>, d: HarvestDraft, logId: string)
    requires d.weightKg.Finite?
    ensures TotalHarvested(logs + [StoreDraft(d, logId)]) == TotalHarvested(logs) + d.weightKg.value
    ensures Sum(logs + [StoreDraft(d, logId)], GradeWeight(d.grade))
      == Sum(logs, GradeWeight(d.grade)) + d.weightKg.value
  {
    var l := StoreDraft(d, logId);
    SumConcat(logs, [l], Weight);
    SumSingleton(l, Weight);
    SumConcat(logs, [l], GradeWeight(d.grade));
    SumSingleton(l, GradeWeight(d.grade));
  }

  /** Entering a whole weight for a batch and saving it raises that
      batch's total harvest by the weight entered. */
  lemma WholeWeightRaisesTotal(logs: seq<HarvestLog>, id: string, n: nat, grade: Grade, today: string, logId: string)
    requires id != ""
    ensures HarvestSubmission(Some(id), NatString(n), grade, today).Some?
    ensures var d := HarvestSubmission(Some(id), NatString(n), grade, today).value;
      d.weightKg.Finite? && d.batchId == id
      && TotalHarvested(logs + [StoreDraft(d, logId)]) == TotalHarvested(logs) + n as real
  {
    WholeWeightSubmission(id, n, grade, today);
    var d := HarvestSubmission(Some(id), NatString(n), grade, today).value;
    LoggedHarvestAddsWeight(logs, d, logId);
  }
}

=== FILE: batch_form.dfy ===
/** The new-batch form: validation, the lifecycle status names, and the
    record it creates. */
module BatchForm {

  import opened Wrappers
  import opened JsValues
  import opened Domain
  import BatchDetails

  /** A status's stored name. */
  function StatusName(s: BatchStatus): string {
    match s
    case Preparation => "preparation"
    case Inoculation => "inoculation"
    case Incubation => "incubation"
    case Fruiting => "fruiting"
    case Harvesting => "harvesting"
    case Completed => "completed"
  }

  /** The status select's options, in lifecycle order. */
  const STATUSES: seq<string> :=
    ["preparation", "inoculation", "incubation", "fruiting", "harvesting", "completed"]

  /** The `status` enum check: the status a name denotes, if any. */
  function ParseStatus(name: string): (r: Option<BatchStatus>)
    ensures forall s :: r == Some(s) <==> StatusName(s) == name
    ensures r.Some? <==> name in STATUSES
  {
    match name
    case "preparation" => Some(Preparation)
    case "inoculation" => Some(Inoculation)
    case "incubation" => Some(Incubation)
    case "fruiting" => Some(Fruiting)
    case "harvesting" => Some(Harvesting)
    case "completed" => Some(Completed)
    case _ => None
  }

  /** Every status parses back from its name, and the options list the
      statuses in declaration order, each once. */
  lemma StatusNamesRoundTrip(s: BatchStatus)
    ensures ParseStatus(StatusName(s)) == Some(s)
    ensures |STATUSES| == 6
    ensures STATUSES == [StatusName(Preparation), StatusName(Inoculation), StatusName(Incubation),
                         StatusName(Fruiting), StatusName(Harvesting), StatusName(Completed)]
  {
  }

  /** The form's fields as entered; the optional ones may be absent. */
  datatype BatchFormValues = BatchFormValues(
    name: string,
    mushroomType: string,
    status: string,
    startDate: string,
    targetHarvestDate: string,
    substrateType: Option<string>,
    substrateQty: Option<string>,
    spawnType: Option<string>,
    spawnQty: Option<string>,
    notes: Option<string>)

  datatype BatchField = NameField | MushroomTypeField | StatusField | StartDateField | TargetDateField

  /** The values a new batch starts from. */
  function Defaults(today: string): BatchFormValues {
    BatchFormValues("", "Oyster", "preparation", today, "", Some("Wheat Straw"), Some(""),
                    Some("Grain Spawn"), Some(""), Some(""))
  }

  /** The fields the schema rejects: the four required texts must be
      non-empty and the status one of the six names. */
  function FormErrors(f: BatchFormValues): (r: set<BatchField>)
    ensures r == {} <==> f.name != "" && f.mushroomType != "" && f.status in STATUSES
                         && f.startDate != "" && f.targetHarvestDate != ""
  {
    (if f.name == "" then {NameField} else {})
    + (if f.mushroomType == "" then {MushroomTypeField} else {})
    + (if ParseStatus(f.status).None? then {StatusField} else {})
    + (if f.startDate == "" then {StartDateField} else {})
    + (if f.targetHarvestDate == "" then {TargetDateField} else {})
  }

  /** A fresh form with a start date filled in lacks exactly a name and a
      target harvest date. */
  lemma DefaultsNeedNameAndTarget(today: string)
    requires today != ""
    ensures FormErrors(Defaults(today)) == {NameField, TargetDateField}
  {
  }

  /** `qty ? Number(qty) : 0`: a missing or empty quantity is 0, any other
      text is read as a number (possibly NaN). */
  function QtyFromInput(qty: Option<string>): (r: JsNumber)
    ensures qty.None? || qty == Some("") ==> r == Finite(0.0)
    ensures qty.Some? && qty.value != "" ==> r == StringToNumber(qty.value)
  {
    if qty.None? || qty.value == "" then Finite(0.0) else StringToNumber(qty.value)
  }

  /** A quantity entered as whole-number digits is stored as that number. */
  lemma WholeQtyRoundTrip(n: nat)
    ensures QtyFromInput(Some(NatString(n))) == Finite(n as real)
  {
    WholeNumberRoundTrip(n);
  }

  /** `onSubmit`: the record created, with the id storage assigns. The
      mushroom type is stored as the batch's type and no actual harvest
      date is set yet. */
  function Submit(f: BatchFormValues, id: string): (r: Result<Batch, set<BatchField>>)
    ensures r.Failure? <==> FormErrors(f) != {}
    ensures r.Failure? ==> r.error == FormErrors(f)
    ensures r.Success? ==>
      && r.value.id == id && r.value.name == f.name && r.value.mushroomType == f.mushroomType
      && StatusName(r.value.status) == f.status
      && r.value.startDate == f.startDate && r.value.targetHarvestDate == f.targetHarvestDate
      && r.value.actualHarvestDate.None?
      && r.value.substrateQty == Some(QtyFromInput(f.substrateQty))
      && r.value.spawnQty == Some(QtyFromInput(f.spawnQty))
      && r.value.substrateType == f.substrateType && r.value.spawnType == f.spawnType
      && r.value.notes == f.notes
  {
    var errors := FormErrors(f);
    if errors != {} then Failure(errors)
    else
      Success(Batch(id, f.name, ParseStatus(f.status).value, f.mushroomType, f.startDate,
                    f.targetHarvestDate, None, f.substrateType, Some(QtyFromInput(f.substrateQty)),
                    f.spawnType, Some(QtyFromInput(f.spawnQty)), f.notes))
  }

  /** A batch created without a substrate quantity reports an efficiency
      of 0 whatever it harvests. */
  lemma BlankSubstrateNoEfficiency(f: BatchFormValues, id: string, harvested: real)
    requires Submit(f, id).Success?
    requires f.substrateQty.None? || f.substrateQty == Some("")
    ensures BatchDetails.Efficiency(harvested, Submit(f, id).value.substrateQty) == 0.0
  {
  }

  /** A batch created with a positive whole substrate quantity `n`
      reports its harvest per 100 units of `n`. */
  lemma WholeSubstrateEfficiency(f: BatchFormValues, id: string, harvested: real, n: nat)
    requires Submit(f, id).Success?
    requires n > 0 && f.substrateQty == Some(NatString(n))
    ensures BatchDetails.Efficiency(harvested, Submit(f, id).value.substrateQty) * (n as real) == harvested * 100.0
  {
    var b := Submit(f, id).value;
    WholeQtyRoundTrip(n);
    assert b.substrateQty == Some(Finite(n as real));
    assert BatchDetails.PositiveQty(b.substrateQty);
  }
}

=== FILE: constants.dfy ===
/** The static rule tables: the three transaction types, the categories
    each type allows, and the suggested subcategories of some categories. */
module Constants {

  import opened Wrappers

  datatype TxType = Expense | Funding | Revenue

  /** The string a transaction type is stored and compared as. */
  function TypeName(t: TxType): string {
    match t
    case Expense => "expense"
    case Funding => "funding"
    case Revenue => "revenue"
  }

  /** Reads a stored type name back; anything else is not a type. */
  function ParseType(s: string): (r: Option<TxType>)
    ensures forall t :: r == Some(t) <==> TypeName(t) == s
  {
    if s == "expense" then Some(Expense)
    else if s == "funding" then Some(Funding)
    else if s == "revenue" then Some(Revenue)
    else None
  }

  lemma TypeNameRoundTrip(t: TxType)
    ensures ParseType(TypeName(t)) == Some(t)
  {
  }

  datatype TypeOption = TypeOption(value: TxType, caption: string)

  /** The type choices offered by the entry form and the list filter,
      in display order. */
  const TRANSACTION_TYPES: seq<TypeOption> := [
    TypeOption(Funding, "Funding (In)"),
    TypeOption(Expense, "Expense (Out)"),
    TypeOption(Revenue, "Revenue (In)")
  ]

  /** Every type is offered exactly once. */
  lemma TransactionTypesComplete(t: TxType)
    ensures exists i :: 0 <= i < |TRANSACTION_TYPES| && TRANSACTION_TYPES[i].value == t
    ensures forall i, j :: 0 <= i < j < |TRANSACTION_TYPES| ==> TRANSACTION_TYPES[i].value != TRANSACTION_TYPES[j].value
  {
    match t
    case Funding => assert TRANSACTION_TYPES[0].value == t;
    case Expense => assert TRANSACTION_TYPES[1].value == t;
    case Revenue => assert TRANSACTION_TYPES[2].value == t;
  }

  predicate NoDuplicates(s: seq<string>) {
    forall i, j :: 0 <= i < j < |s| ==> s[i] != s[j]
  }

  const FUNDING_CATEGORIES: seq<string> := ["Owner Investment", "Loan", "Grant", "Other"]

  const EXPENSE_CATEGORIES: seq<string> := [
    "Raw Materials", "Equipment", "Utilities", "Labor", "Packaging",
    "Transportation", "Marketing", "Rent/Lease", "Maintenance", "Other"
  ]

  const REVENUE_CATEGORIES: seq<string> := [
    "Fresh Mushrooms", "Dried Mushrooms", "Spawn/Substrate Sales",
    "Merchandise", "Consulting", "Other"
  ]

  /** The categories allowed for each type: every type has its own
      non-empty list without repeats, and `Other` is always allowed. */
  function Categories(t: TxType): (r: seq<string>)
    ensures |r| > 0 && NoDuplicates(r)
    ensures "Other" in r
  {
    match t
    case Funding => FUNDING_CATEGORIES
    case Expense => EXPENSE_CATEGORIES
    case Revenue => REVENUE_CATEGORIES
  }

  /** Suggested subcategories, keyed by category. */
  const COMMON_SUBCATEGORIES: map<string, seq<string>> := map[
    "Raw Materials" := ["Spores", "Substrate (Straw/Sawdust)", "Supplements", "Bags"],
    "Equipment" := ["Shelving", "Humidifiers", "Fans", "Heaters", "Harvesting Tools"],
    "Utilities" := ["Water Bill", "Electricity Bill", "Internet"]
  ]

  /** Suggestions exist only for expense categories, and each suggestion
      list is non-empty. */
  lemma SubcategoriesBelongToExpenses()
    ensures forall c :: c in COMMON_SUBCATEGORIES ==> c in Categories(Expense)
    ensures forall c :: c in COMMON_SUBCATEGORIES ==> |COMMON_SUBCATEGORIES[c]| > 0
  {
  }
}

=== FILE: dashboard.dfy ===
/** The dashboard's ledger aggregation: one pass over all transactions
    yields the summary figures and the month-by-month cash-flow series. */
module Dashboard {

  import opened Wrappers
  import opened JsValues
  import opened Constants
  import opened Domain
  import opened Seqs
  import opened Text

  /** The amounts as the dashboard reads them: `Number(x) || 0`, so a
      missing or non-numeric amount counts as 0. */
  function DebitAmount(t: Transaction): real {
    Coerce(t.debit)
  }

  function CreditAmount(t: Transaction): real {
    Coerce(t.credit)
  }

  /** Credit of revenue rows only: sales, not funding. */
  function RevenueCredit(t: Transaction): real {
    if t.txType == Revenue then CreditAmount(t) else 0.0
  }

  function FundingCredit(t: Transaction): real {
    if t.txType == Funding then CreditAmount(t) else 0.0
  }

  /** A row's contribution to the chart: expense rows chart their debit
      as Expense, every other row charts its credit as Income. */
  function ChartIncome(t: Transaction): real {
    if t.txType == Expense then 0.0 else CreditAmount(t)
  }

  function ChartExpense(t: Transaction): real {
    if t.txType == Expense then DebitAmount(t) else 0.0
  }

  /** `date.slice(0, 7)`: the `YYYY-MM` part of an ISO date. */
  function MonthKey(d: string): (m: string)
    ensures |m| <= 7 && |m| <= |d| && m == d[..|m|]
    ensures |d| >= 7 ==> |m| == 7
    ensures |d| < 7 ==> m == d
  {
    if |d| <= 7 then d else d[..7]
  }

  /** The month a row is charted under; rows whose date is missing or
      empty are charted under none. */
  function MonthOf(t: Transaction): (r: Option<string>)
    ensures r.Some? <==> t.date.Some? && t.date.value != ""
    ensures r.Some? ==> r.value == MonthKey(t.date.value)
  {
    match t.date
    case Some(d) => if d == "" then None else Some(MonthKey(d))
    case None => None
  }

  datatype Summary = Summary(balance: real, income: real, expense: real, funding: real)

  datatype MonthTotals = MonthTotals(income: real, expense: real)

  /** One point of the cash-flow chart; `name` is the month. */
  datatype ChartPoint = ChartPoint(name: string, income: real, expense: real)

  function Names(chart: seq<ChartPoint>): (r: seq<string>)
    ensures |r| == |chart|
    ensures forall k :: 0 <= k < |chart| ==> r[k] == chart[k].name
  {
    if |chart| == 0 then [] else [chart[0].name] + Names(chart[1..])
  }

  /** What the summary means: cash balance is all credit minus all debit;
      income is revenue credit only; expense is every debit whatever the
      row's type; funding is funding credit. */
  ghost predicate IsSummaryOf(txs: seq<Transaction>, s: Summary) {
    && s.balance == Sum(txs, CreditAmount) - Sum(txs, DebitAmount)
    && s.income == Sum(txs, RevenueCredit)
    && s.expense == Sum(txs, DebitAmount)
    && s.funding == Sum(txs, FundingCredit)
  }

  ghost predicate HasMonth(txs: seq<Transaction>, m: string) {
    HasKey(txs, MonthOf, m)
  }

  /** The total charted as Income (resp. Expense) for month `m`. */
  ghost function MonthIncome(txs: seq<Transaction>, m: string): real {
    Sum(txs, Bucket(MonthOf, ChartIncome, m))
  }

  ghost function MonthExpense(txs: seq<Transaction>, m: string): real {
    Sum(txs, Bucket(MonthOf, ChartExpense, m))
  }

  /** What the series means: one point per month that some dated row
      falls in, none for other months, strictly ascending by month, each
      carrying that month's Income and Expense totals. */
  ghost predicate IsChartOf(txs: seq<Transaction>, chart: seq<ChartPoint>) {
    && StrictlySorted(Names(chart))
    && (forall m :: m in Names(chart) <==> HasMonth(txs, m))
    && (forall k :: 0 <= k < |chart| ==>
          chart[k].income == MonthIncome(txs, chart[k].name)
          && chart[k].expense == MonthExpense(txs, chart[k].name))
  }

  /** The month map after the first rows: a key for every month seen so
      far, holding that month's running totals. */
  ghost predicate IsMonthlyOf(txs: seq<Transaction>, monthly: map<string, MonthTotals>) {
    && (forall m :: m in monthly <==> HasMonth(txs, m))
    && (forall m :: m in monthly ==>
          monthly[m].income == MonthIncome(txs, m) && monthly[m].expense == MonthExpense(txs, m))
  }

  /** One more row only touches the entry of its own month. */
  lemma MonthlyStep(txs: seq<Transaction>, t: Transaction, m: string)
    ensures MonthIncome(txs + [t], m) == MonthIncome(txs, m) + (if MonthOf(t) == Some(m) then ChartIncome(t) else 0.0)
    ensures MonthExpense(txs + [t], m) == MonthExpense(txs, m) + (if MonthOf(t) == Some(m) then ChartExpense(t) else 0.0)
    ensures HasMonth(txs + [t], m) <==> HasMonth(txs, m) || MonthOf(t) == Some(m)
  {
    var s := txs + [t];
    assert s[..|s| - 1] == txs;
    assert forall i :: 0 <= i < |txs| ==> s[i] == txs[i];
    if MonthOf(t) == Some(m) {
      assert s[|txs|] == t;
    }
  }

  /** A month with no rows has zero totals. */
  lemma UnseenMonth(txs: seq<Transaction>, m: string)
    requires !HasMonth(txs, m)
    ensures MonthIncome(txs, m) == 0.0 && MonthExpense(txs, m) == 0.0
  {
    BucketEmpty(txs, MonthOf, ChartIncome, m);
    BucketEmpty(txs, MonthOf, ChartExpense, m);
  }

  /** Adds one row's amounts to the month map (the body of the chart
      branch of the loop). */
  function AddToMonth(monthly: map<string, MonthTotals>, t: Transaction, month: string): (r: map<string, MonthTotals>)
    ensures r.Keys == monthly.Keys + {month}
  {
    var entry := if month in monthly then monthly[month] else MonthTotals(0.0, 0.0);
    var updated := if t.txType == Expense then entry.(expense := entry.expense + DebitAmount(t))
                   else entry.(income := entry.income + CreditAmount(t));
    monthly[month := updated]
  }

  lemma AddToMonthCases(monthly: map<string, MonthTotals>, t: Transaction, month: string)
    ensures forall m :: m in AddToMonth(monthly, t, month) && m != month ==> AddToMonth(monthly, t, month)[m] == monthly[m]
    ensures var e := AddToMonth(monthly, t, month)[month];
      var prior := if month in monthly then monthly[month] else MonthTotals(0.0, 0.0);
      e.income == prior.income + (if t.txType == Expense then 0.0 else CreditAmount(t))
      && e.expense == prior.expense + (if t.txType == Expense then DebitAmount(t) else 0.0)
  {
  }

  /** A dated row updates exactly its month's entry, creating it when
      the month is new. */
  lemma AddToMonthKeeps(txs: seq<Transaction>, monthly: map<string, MonthTotals>, t: Transaction, month: string)
    requires IsMonthlyOf(txs, monthly)
    requires MonthOf(t) == Some(month)
    ensures IsMonthlyOf(txs + [t], AddToMonth(monthly, t, month))
  {
    AddToMonthCases(monthly, t, month);
    var r := AddToMonth(monthly, t, month);
    if month !in monthly {
      UnseenMonth(txs, month);
    }
    forall m
      ensures m in r <==> HasMonth(txs + [t], m)
      ensures m in r ==> r[m].income == MonthIncome(txs + [t], m) && r[m].expense == MonthExpense(txs + [t], m)
    {
      MonthlyStep(txs, t, m);
    }
  }

  /** An undated row leaves the month map as it is. */
  lemma UndatedKeeps(txs: seq<Transaction>, monthly: map<string, MonthTotals>, t: Transaction)
    requires IsMonthlyOf(txs, monthly)
    requires MonthOf(t).None?
    ensures IsMonthlyOf(txs + [t], monthly)
  {
    forall m
      ensures m in monthly <==> HasMonth(txs + [t], m)
      ensures m in monthly ==> monthly[m].income == MonthIncome(txs + [t], m) && monthly[m].expense == MonthExpense(txs + [t], m)
    {
      MonthlyStep(txs, t, m);
    }
  }

  /** The chart branch of the loop: a dated row is added to its month,
      an undated one is skipped. */
  function MonthlyAdd(monthly: map<string, MonthTotals>, t: Transaction): map<string, MonthTotals> {
    match MonthOf(t)
    case Some(month) => AddToMonth(monthly, t, month)
    case None => monthly
  }

  lemma MonthlyAddKeeps(txs: seq<Transaction>, monthly: map<string, MonthTotals>, t: Transaction)
    requires IsMonthlyOf(txs, monthly)
    ensures IsMonthlyOf(txs + [t], MonthlyAdd(monthly, t))
  {
    match MonthOf(t)
    case Some(month) => AddToMonthKeeps(txs, monthly, t, month);
    case None => UndatedKeeps(txs, monthly, t);
  }

  /** One more row adds its amounts to the running totals. */
  lemma SummaryStep(txs: seq<Transaction>, t: Transaction)
    ensures Sum(txs + [t], DebitAmount) == Sum(txs, DebitAmount) + DebitAmount(t)
    ensures Sum(txs + [t], CreditAmount) == Sum(txs, CreditAmount) + CreditAmount(t)
    ensures Sum(txs + [t], RevenueCredit) == Sum(txs, RevenueCredit) + RevenueCredit(t)
    ensures Sum(txs + [t], FundingCredit) == Sum(txs, FundingCredit) + FundingCredit(t)
  {
    assert (txs + [t])[..|txs|] == txs;
  }

  /** The `forEach` of `calculateStats`: folds the rows in order into
      the four running totals and the month map. */
  method Accumulate(txs: seq<Transaction>) returns (summary: Summary, monthly: map<string, MonthTotals>)
    ensures IsSummaryOf(txs, summary)
    ensures IsMonthlyOf(txs, monthly)
  {
    var totalDebit, totalCredit, revenueCredit, fundingCredit := 0.0, 0.0, 0.0, 0.0;
    monthly := map[];
    for i := 0 to |txs|
      invariant IsSummaryOf(txs[..i], Summary(totalCredit - totalDebit, revenueCredit, totalDebit, fundingCredit))
      invariant IsMonthlyOf(txs[..i], monthly)
    {
      var t := txs[i];
      assert txs[..i + 1] == txs[..i] + [t];
      SummaryStep(txs[..i], t);
      var debit := DebitAmount(t);
      var credit := CreditAmount(t);
      totalDebit := totalDebit + debit;
      totalCredit := totalCredit + credit;
      if t.txType == Revenue {
        revenueCredit := revenueCredit + credit;
      }
      if t.txType == Funding {
        fundingCredit := fundingCredit + credit;
      }
      MonthlyAddKeeps(txs[..i], monthly, t);
      monthly := MonthlyAdd(monthly, t);
    }
    assert txs[..|txs|] == txs;
    summary := Summary(totalCredit - totalDebit, revenueCredit, totalDebit, fundingCredit);
  }

  /** The chart formatting: the month keys sorted ascending, each with its
      totals. */
  method BuildChart(monthly: map<string, MonthTotals>) returns (chart: seq<ChartPoint>)
    ensures StrictlySorted(Names(chart))
    ensures forall m :: m in Names(chart) <==> m in monthly
    ensures forall k :: 0 <= k < |chart| ==>
      && chart[k].name in monthly
      && chart[k].income == monthly[chart[k].name].income
      && chart[k].expense == monthly[chart[k].name].expense
  {
    var sortedMonths := SortKeys(monthly.Keys);
    chart := [];
    for k := 0 to |sortedMonths|
      invariant |chart| == k
      invariant forall j :: 0 <= j < k ==>
        chart[j] == ChartPoint(sortedMonths[j], monthly[sortedMonths[j]].income, monthly[sortedMonths[j]].expense)
    {
      var m := sortedMonths[k];
      chart := chart + [ChartPoint(m, monthly[m].income, monthly[m].expense)];
    }
    assert Names(chart) == sortedMonths;
  }

  /** `calculateStats`: the summary figures and the cash-flow series. */
  method CalculateStats(txs: seq<Transaction>) returns (summary: Summary, chart: seq<ChartPoint>)
    ensures IsSummaryOf(txs, summary)
    ensures IsChartOf(txs, chart)
  {
    var monthly;
    summary, monthly := Accumulate(txs);
    chart := BuildChart(monthly);
  }

  /** The series totals, added over all months. */
  function ChartIncomeTotal(chart: seq<ChartPoint>): real {
    if |chart| == 0 then 0.0 else chart[0].income + ChartIncomeTotal(chart[1..])
  }

  function ChartExpenseTotal(chart: seq<ChartPoint>): real {
    if |chart| == 0 then 0.0 else chart[0].expense + ChartExpenseTotal(chart[1..])
  }

  lemma {:induction false} ChartTotalsAsGroups(txs: seq<Transaction>, chart: seq<ChartPoint>)
    requires forall k :: 0 <= k < |chart| ==>
      chart[k].income == MonthIncome(txs, chart[k].name) && chart[k].expense == MonthExpense(txs, chart[k].name)
    ensures ChartIncomeTotal(chart) == GroupTotals(Names(chart), txs, MonthOf, ChartIncome)
    ensures ChartExpenseTotal(chart) == GroupTotals(Names(chart), txs, MonthOf, ChartExpense)
  {
    if |chart| > 0 {
      assert Names(chart)[1..] == Names(chart[1..]);
      ChartTotalsAsGroups(txs, chart[1..]);
    }
  }

  /** The series loses no dated row and counts none twice: its Income
      adds up to the credit of every dated non-expense row, its Expense
      to the debit of every dated expense row. */
  lemma SeriesTotals(txs: seq<Transaction>, chart: seq<ChartPoint>)
    requires IsChartOf(txs, chart)
    ensures ChartIncomeTotal(chart) == Sum(txs, Keyed(MonthOf, ChartIncome))
    ensures ChartExpenseTotal(chart) == Sum(txs, Keyed(MonthOf, ChartExpense))
  {
    var names := Names(chart);
    assert Distinct(names) by {
      forall i, j | 0 <= i < j < |names|
        ensures names[i] != names[j]
      {
        SortedDistinct(names, i, j);
      }
    }
    forall i | 0 <= i < |txs| && MonthOf(txs[i]).Some?
      ensures MonthOf(txs[i]).value in names
    {
      assert HasMonth(txs, MonthOf(txs[i]).value);
    }
    ChartTotalsAsGroups(txs, chart);
    GroupTotalsPartition(names, txs, MonthOf, ChartIncome);
    GroupTotalsPartition(names, txs, MonthOf, ChartExpense);
  }

  /** No rows: every figure is 0 and the series is empty. */
  lemma EmptyLedger(s: Summary, chart: seq<ChartPoint>)
    requires IsSummaryOf([], s) && IsChartOf([], chart)
    ensures s == Summary(0.0, 0.0, 0.0, 0.0)
    ensures chart == []
  {
    assert forall k :: 0 <= k < |chart| ==> Names(chart)[k] in Names(chart);
  }

  /** A row without a date still counts in the four figures but adds
      nothing to the series. */
  lemma UndatedRow(txs: seq<Transaction>, t: Transaction, chart: seq<ChartPoint>)
    requires MonthOf(t).None?
    requires IsChartOf(txs, chart)
    ensures IsChartOf(txs + [t], chart)
    ensures Sum(txs + [t], DebitAmount) == Sum(txs, DebitAmount) + DebitAmount(t)
    ensures Sum(txs + [t], CreditAmount) == Sum(txs, CreditAmount) + CreditAmount(t)
  {
    forall m
      ensures MonthIncome(txs + [t], m) == MonthIncome(txs, m)
      ensures MonthExpense(txs + [t], m) == MonthExpense(txs, m)
      ensures HasMonth(txs + [t], m) <==> HasMonth(txs, m)
    {
      MonthlyStep(txs, t, m);
    }
    SummaryStep(txs, t);
  }

  /** What the dashboard reads of a row. */
  predicate SameReading(t: Transaction, u: Transaction) {
    && MonthOf(t) == MonthOf(u)
    && t.txType == u.txType
    && DebitAmount(t) == DebitAmount(u)
    && CreditAmount(t) == CreditAmount(u)
  }

  /** Rows that read the same give every month the same totals. */
  lemma SameReadingSameMonth(a: seq<Transaction>, b: seq<Transaction>, m: string)
    requires |a| == |b|
    requires forall k :: 0 <= k < |a| ==> SameReading(a[k], b[k])
    ensures MonthIncome(a, m) == MonthIncome(b, m)
    ensures MonthExpense(a, m) == MonthExpense(b, m)
    ensures HasMonth(a, m) <==> HasMonth(b, m)
  {
    assert forall k :: 0 <= k < |a| ==>
      ChartIncome(a[k]) == ChartIncome(b[k]) && ChartExpense(a[k]) == ChartExpense(b[k]);
    SumIndexwise(a, b, Bucket(MonthOf, ChartIncome, m));
    SumIndexwise(a, b, Bucket(MonthOf, ChartExpense, m));
  }

  /** Rows that read the same give the same figures and series. */
  lemma SameReadingSameStats(a: seq<Transaction>, b: seq<Transaction>, s: Summary, chart: seq<ChartPoint>)
    requires |a| == |b|
    requires forall k :: 0 <= k < |a| ==> SameReading(a[k], b[k])
    ensures IsSummaryOf(a, s) <==> IsSummaryOf(b, s)
    ensures IsChartOf(a, chart) <==> IsChartOf(b, chart)
  {
    SumIndexwise(a, b, DebitAmount);
    SumIndexwise(a, b, CreditAmount);
    SumIndexwise(a, b, RevenueCredit);
    SumIndexwise(a, b, FundingCredit);
    forall m
      ensures MonthIncome(a, m) == MonthIncome(b, m)
      ensures MonthExpense(a, m) == MonthExpense(b, m)
      ensures HasMonth(a, m) <==> HasMonth(b, m)
    {
      SameReadingSameMonth(a, b, m);
    }
  }

  /** A debit that is not a number counts exactly as a debit of 0: the
      totals and the series are those of the same rows with that debit
      zeroed, never NaN. */
  lemma NonNumericDebitIsZero(txs: seq<Transaction>, i: int, v: Value, s: Summary, chart: seq<ChartPoint>)
    requires 0 <= i < |txs|
    requires ToNumber(v).NaN?
    ensures IsSummaryOf(txs[i := txs[i].(debit := v)], s) <==> IsSummaryOf(txs[i := txs[i].(debit := Num(Finite(0.0)))], s)
    ensures IsChartOf(txs[i := txs[i].(debit := v)], chart) <==> IsChartOf(txs[i := txs[i].(debit := Num(Finite(0.0)))], chart)
  {
    SameReadingSameStats(txs[i := txs[i].(debit := v)], txs[i := txs[i].(debit := Num(Finite(0.0)))], s, chart);
  }

  /** The figures and the series do not depend on the order of the rows:
      whatever order storage returns them in, the dashboard shows the
      same thing. */
  lemma StatsOrderIndependent(a: seq<Transaction>, b: seq<Transaction>,
                              s1: Summary, c1: seq<ChartPoint>, s2: Summary, c2: seq<ChartPoint>)
    requires multiset(a) == multiset(b)
    requires IsSummaryOf(a, s1) && IsChartOf(a, c1)
    requires IsSummaryOf(b, s2) && IsChartOf(b, c2)
    ensures s1 == s2
    ensures c1 == c2
  {
    SumPermutation(a, b, DebitAmount);
    SumPermutation(a, b, CreditAmount);
    SumPermutation(a, b, RevenueCredit);
    SumPermutation(a, b, FundingCredit);
    forall m
      ensures m in Names(c1) <==> m in Names(c2)
    {
      HasKeyPermutation(a, b, MonthOf, m);
    }
    SortedUnique(Names(c1), Names(c2));
    forall k | 0 <= k < |c1|
      ensures c1[k] == c2[k]
    {
      assert Names(c1)[k] == Names(c2)[k];
      SumPermutation(a, b, Bucket(MonthOf, ChartIncome, c1[k].name));
      SumPermutation(a, b, Bucket(MonthOf, ChartExpense, c1[k].name));
    }
  }

  /** For rows entered through the form (each amount on the side its
      type calls for) that all carry a date, the series adds up to the
      summary: Income over all months is revenue plus funding, Expense
      over all months is the expense figure, and the balance is
      revenue plus funding minus expense. */
  lemma SeriesMatchesSummary(txs: seq<Transaction>, s: Summary, chart: seq<ChartPoint>)
    requires forall t :: t in txs ==> SidesMatchType(t) && MonthOf(t).Some?
    requires IsSummaryOf(txs, s) && IsChartOf(txs, chart)
    ensures ChartIncomeTotal(chart) == s.income + s.funding
    ensures ChartExpenseTotal(chart) == s.expense
    ensures s.balance == s.income + s.funding - s.expense
  {
    SeriesTotals(txs, chart);
    SumAdd(txs, RevenueCredit, FundingCredit, ChartIncome);
    SumPointwise(txs, Keyed(MonthOf, ChartIncome), ChartIncome);
    SumPointwise(txs, Keyed(MonthOf, ChartExpense), DebitAmount);
    SumPointwise(txs, CreditAmount, ChartIncome);
  }

  /** The worked example: funding of 10000 without a date, an expense of
      2000 in January 2024 and revenue of 3000 in February 2024. */
  function ExampleLedger(): seq<Transaction> {
    [
      Transaction("t1", None, Funding, "Owner Investment", None, "Seed capital",
                  Undefined, Num(Finite(10000.0)), None, None),
      Transaction("t2", Some("2024-01-15"), Expense, "Raw Materials", None, "Spawn",
                  Num(Finite(2000.0)), Undefined, None, None),
      Transaction("t3", Some("2024-02-10"), Revenue, "Fresh Mushrooms", None, "Market sale",
                  Undefined, Num(Finite(3000.0)), None, None)
    ]
  }

  lemma ExampleSummary()
    ensures IsSummaryOf(ExampleLedger(), Summary(11000.0, 3000.0, 2000.0, 10000.0))
  {
    var txs := ExampleLedger();
    SumThree(txs[0], txs[1], txs[2], DebitAmount);
    SumThree(txs[0], txs[1], txs[2], CreditAmount);
    SumThree(txs[0], txs[1], txs[2], RevenueCredit);
    SumThree(txs[0], txs[1], txs[2], FundingCredit);
  }

  lemma ExampleMonths()
    ensures MonthOf(ExampleLedger()[0]) == None
    ensures MonthOf(ExampleLedger()[1]) == Some("2024-01")
    ensures MonthOf(ExampleLedger()[2]) == Some("2024-02")
  {
    assert "2024-01-15"[..7] == "2024-01";
    assert "2024-02-10"[..7] == "2024-02";
  }

  /** The example's rows fall in January and February 2024 only. */
  lemma ExampleChartMonths()
    ensures forall m :: HasMonth(ExampleLedger(), m) <==> m == "2024-01" || m == "2024-02"
  {
    var txs := ExampleLedger();
    ExampleMonths();
    assert txs == [txs[0], txs[1], txs[2]];
    forall m
      ensures HasMonth(txs, m) <==> m == "2024-01" || m == "2024-02"
    {
      assert HasMonth(txs, m) <==> MonthOf(txs[0]) == Some(m) || MonthOf(txs[1]) == Some(m) || MonthOf(txs[2]) == Some(m);
    }
  }

  lemma ExampleMonthTotals()
    ensures MonthIncome(ExampleLedger(), "2024-01") == 0.0
    ensures MonthExpense(ExampleLedger(), "2024-01") == 2000.0
    ensures MonthIncome(ExampleLedger(), "2024-02") == 3000.0
    ensures MonthExpense(ExampleLedger(), "2024-02") == 0.0
  {
    var txs := ExampleLedger();
    ExampleMonths();
    assert txs == [txs[0], txs[1], txs[2]];
    assert txs[1].txType == Expense && txs[2].txType == Revenue;
    assert ChartIncome(txs[1]) == 0.0 && ChartExpense(txs[1]) == 2000.0;
    assert ChartIncome(txs[2]) == 3000.0 && ChartExpense(txs[2]) == 0.0;
    SumThree(txs[0], txs[1], txs[2], Bucket(MonthOf, ChartIncome, "2024-01"));
    SumThree(txs[0], txs[1], txs[2], Bucket(MonthOf, ChartExpense, "2024-01"));
    SumThree(txs[0], txs[1], txs[2], Bucket(MonthOf, ChartIncome, "2024-02"));
    SumThree(txs[0], txs[1], txs[2], Bucket(MonthOf, ChartExpense, "2024-02"));
  }

  lemma ExampleChart()
    ensures IsChartOf(ExampleLedger(), [ChartPoint("2024-01", 0.0, 2000.0), ChartPoint("2024-02", 3000.0, 0.0)])
  {
    var chart := [ChartPoint("2024-01", 0.0, 2000.0), ChartPoint("2024-02", 3000.0, 0.0)];
    ExampleMonthsOrdered();
    assert Names(chart) == ["2024-01", "2024-02"];
    ExampleChartMonths();
    ExampleMonthTotals();
  }

  lemma ExampleMonthsOrdered()
    ensures Less("2024-01", "2024-02")
  {
    assert Less("2024-01", "2024-02") by {
      assert "2024-01"[1..] == "024-01" && "2024-02"[1..] == "024-02";
      assert "024-01"[1..] == "24-01" && "024-02"[1..] == "24-02";
      assert "24-01"[1..] == "4-01" && "24-02"[1..] == "4-02";
      assert "4-01"[1..] == "-01" && "4-02"[1..] == "-02";
      assert "-01"[1..] == "01" && "-02"[1..] == "02";
      assert "01"[1..] == "1" && "02"[1..] == "2";
    }
  }
}

=== FILE: domain.dfy ===
/** The records the ledger works on: transactions, production batches and
    harvest weigh-ins. Field values that storage may hand back untyped
    (amounts, batch quantities) keep their dynamic type. */
module Domain {

  import opened Wrappers
  import opened JsValues
  import opened Constants

  /** One money movement. `txType` is the record's `type` field. The
      amounts are whatever storage returned; the screens convert them. */
  datatype Transaction = Transaction(
    id: string,
    date: Option<string>,
    txType: TxType,
    category: string,
    subcategory: Option<string>,
    description: string,
    debit: Value,
    credit: Value,
    notes: Option<string>,
    batchId: Option<string>)

  /** The production lifecycle, in order. */
  datatype BatchStatus = Preparation | Inoculation | Incubation | Fruiting | Harvesting | Completed

  /** One production cycle. `mushroomType` is the record's `type` field. */
  datatype Batch = Batch(
    id: string,
    name: string,
    status: BatchStatus,
    mushroomType: string,
    startDate: string,
    targetHarvestDate: string,
    actualHarvestDate: Option<string>,
    substrateType: Option<string>,
    substrateQty: Option<JsNumber>,
    spawnType: Option<string>,
    spawnQty: Option<JsNumber>,
    notes: Option<string>)

  datatype Grade = A | B | C | Waste

  /** One weigh-in of a batch's harvest. */
  datatype HarvestLog = HarvestLog(
    id: string,
    batchId: string,
    date: string,
    weightKg: real,
    grade: Grade,
    notes: Option<string>)

  /** The ledger invariant the entry form establishes: an expense carries
      its amount as debit and no credit, any other row as credit and no
      debit (amounts read as `Number(x) || 0`). */
  predicate SidesMatchType(t: Transaction) {
    if t.txType == Expense then Coerce(t.credit) == 0.0 else Coerce(t.debit) == 0.0
  }
}

=== FILE: js_values.dfy ===
/** Dynamically typed field values and the JavaScript number conversions
    the ledger relies on: `Number(v)`, `Number(s)` on strings, and the
    `x || 0` fallback. Numbers are exact reals; IEEE-754 rounding and the
    infinities are not modelled. */
module JsValues {

  /** The result of JavaScript's `Number(...)`: a finite number or NaN. */
  datatype JsNumber = Finite(value: real) | NaN

  /** A field value as it arrives from storage, a form or a patch object. */
  datatype Value = Num(n: JsNumber) | Str(s: string) | Null | Undefined

  predicate IsDigit(c: char) {
    '0' <= c <= '9'
  }

  predicate AllDigits(s: string) {
    forall i :: 0 <= i < |s| ==> IsDigit(s[i])
  }

  function DigitValue(c: char): nat
    requires IsDigit(c)
  {
    c as int - '0' as int
  }

  /** The value of a string of decimal digits, read left to right. */
  function DigitsValue(s: string): nat
    requires AllDigits(s)
  {
    if |s| == 0 then 0 else DigitsValue(s[..|s| - 1]) * 10 + DigitValue(s[|s| - 1])
  }

  function Pow10(k: nat): (r: nat)
    ensures r >= 1
  {
    if k == 0 then 1 else 10 * Pow10(k - 1)
  }

  /** The decimal digits of `n` without leading zeros: what `String(n)`
      prints for a whole number 0 <= n < 10^21 (from 10^21 on, `String`
      switches to exponent form, which is not modelled). */
  function NatString(n: nat): (r: string)
    ensures |r| > 0 && AllDigits(r)
    ensures |r| > 1 ==> r[0] != '0'
  {
    var d := ['0' + (n % 10) as char];
    if n < 10 then d else NatString(n / 10) + d
  }

  /** Reading back the digits that `NatString` prints gives the number. */
  lemma {:induction false} NatStringValue(n: nat)
    ensures DigitsValue(NatString(n)) == n
  {
    var r := NatString(n);
    if n >= 10 {
      NatStringValue(n / 10);
      assert r[..|r| - 1] == NatString(n / 10);
    }
  }

  /** The white space characters `Number(s)` strips (the ASCII ones, the
      no-break space and the byte-order mark). */
  predicate IsSpace(c: char) {
    c == ' ' || c == '\t' || c == '\n' || c == '\r' || c == '\U{000B}'
    || c == '\U{000C}' || c == '\U{00A0}' || c == '\U{FEFF}'
  }

  function TrimStart(s: string): (r: string)
    ensures |r| <= |s|
    ensures |r| > 0 ==> !IsSpace(r[0])
  {
    if |s| > 0 && IsSpace(s[0]) then TrimStart(s[1..]) else s
  }

  function TrimEnd(s: string): (r: string)
    ensures |r| <= |s|
    ensures |r| > 0 ==> !IsSpace(r[|r| - 1])
  {
    if |s| > 0 && IsSpace(s[|s| - 1]) then TrimEnd(s[..|s| - 1]) else s
  }

  function Trim(s: string): string {
    TrimEnd(TrimStart(s))
  }

  /** Index of the first `c` in `s`, or `|s|` when there is none. */
  function FirstIndexOf(s: string, c: char): (i: nat)
    ensures i <= |s|
    ensures i < |s| ==> s[i] == c
  {
    if |s| == 0 then 0
    else if s[0] == c then 0
    else 1 + FirstIndexOf(s[1..], c)
  }

  /** An unsigned decimal literal: digits, optionally followed by `.` and
      more digits, with at least one digit overall (`5`, `5.`, `.5`, `5.25`). */
  function UnsignedDecimal(s: string): JsNumber {
    var dot := FirstIndexOf(s, '.');
    DecimalParts(s[..dot], if dot < |s| then s[dot + 1..] else "")
  }

  /** The value of the digits before and after the decimal point. */
  function DecimalParts(whole: string, frac: string): JsNumber {
    if AllDigits(whole) && AllDigits(frac) && |whole| + |frac| > 0 then
      Finite(DigitsValue(whole) as real + DigitsValue(frac) as real / Pow10(|frac|) as real)
    else
      NaN
  }

  function Negate(n: JsNumber): JsNumber {
    match n
    case Finite(x) => Finite(-x)
    case NaN => NaN
  }

  /** `Number(s)` for a string: surrounding white space is ignored, the
      empty string is 0, an optional sign precedes a decimal literal, and
      anything else is NaN. */
  function StringToNumber(s: string): JsNumber {
    var t := Trim(s);
    if |t| == 0 then Finite(0.0) else SignedDecimal(t)
  }

  /** A decimal literal with an optional leading sign. */
  function SignedDecimal(t: string): JsNumber
    requires |t| > 0
  {
    if t[0] == '-' then Negate(UnsignedDecimal(t[1..]))
    else if t[0] == '+' then UnsignedDecimal(t[1..])
    else UnsignedDecimal(t)
  }

  /** `Number(v)` for any field value. */
  function ToNumber(v: Value): JsNumber {
    match v
    case Num(n) => n
    case Str(s) => StringToNumber(s)
    case Null => Finite(0.0)
    case Undefined => NaN
  }

  /** `Number(v) || 0`: NaN (and 0) fall back to 0. */
  function Coerce(v: Value): (r: real)
    ensures ToNumber(v).NaN? ==> r == 0.0
    ensures ToNumber(v).Finite? ==> r == ToNumber(v).value
  {
    match ToNumber(v)
    case Finite(x) => x
    case NaN => 0.0
  }

  /** `Number` applied to its own result changes nothing. */
  lemma ToNumberIdempotent(v: Value)
    ensures ToNumber(Num(ToNumber(v))) == ToNumber(v)
    ensures Coerce(Num(ToNumber(v))) == Coerce(v)
  {
  }

  lemma NoSpaceStart(s: string)
    requires |s| > 0 && !IsSpace(s[0])
    ensures TrimStart(s) == s
  {
  }

  /** Text that neither starts nor ends with white space is unchanged by
      trimming. */
  lemma NoSpaceTrim(s: string)
    requires |s| > 0 && !IsSpace(s[0]) && !IsSpace(s[|s| - 1])
    ensures Trim(s) == s
  {
    NoSpaceStart(s);
  }

  /** A digit string has no surrounding white space. */
  lemma DigitsTrimmed(s: string)
    requires |s| > 0 && AllDigits(s)
    ensures Trim(s) == s
  {
    assert IsDigit(s[0]) && IsDigit(s[|s| - 1]);
    NoSpaceTrim(s);
  }

  /** A non-empty digit string reads as its digits' value. */
  lemma DigitsDecimal(s: string)
    requires |s| > 0 && AllDigits(s)
    ensures UnsignedDecimal(s) == Finite(DigitsValue(s) as real)
  {
    assert forall i :: 0 <= i < |s| ==> s[i] != '.';
    var dot := FirstIndexOf(s, '.');
    assert dot == |s|;
    assert s[..dot] == s;
    assert Pow10(0) == 1;
  }

  /** Text without surrounding white space is read as a signed decimal. */
  lemma TrimmedIsSigned(s: string)
    requires |s| > 0 && Trim(s) == s
    ensures StringToNumber(s) == SignedDecimal(s)
  {
  }

  /** Text that starts with neither sign is read unsigned. */
  lemma Unsigned(s: string)
    requires |s| > 0 && s[0] != '-' && s[0] != '+'
    ensures SignedDecimal(s) == UnsignedDecimal(s)
  {
  }

  /** A non-empty digit string converts to its digits' value. */
  lemma DigitsRoundTrip(s: string)
    requires |s| > 0 && AllDigits(s)
    ensures StringToNumber(s) == Finite(DigitsValue(s) as real)
  {
    DigitsTrimmed(s);
    TrimmedIsSigned(s);
    assert IsDigit(s[0]);
    Unsigned(s);
    DigitsDecimal(s);
  }

  /** Printing a whole number and converting it back gives the number:
      the string form of an amount reads back as that amount. */
  lemma WholeNumberRoundTrip(n: nat)
    ensures StringToNumber(NatString(n)) == Finite(n as real)
  {
    DigitsRoundTrip(NatString(n));
    NatStringValue(n);
  }

  /** Decimal text converts to its value. */
  lemma DecimalTextExample()
    ensures StringToNumber("12.5") == Finite(12.5)
  {
    var s := "12.5";
    NoSpaceTrim(s);
    TrimmedIsSigned(s);
    Unsigned(s);
    assert FirstIndexOf(s, '.') == 2 by {
      assert s[1..] == "2.5" && "2.5"[1..] == ".5";
    }
    assert s[..2] == "12" && s[3..] == "5";
    assert DecimalParts("12", "5") == Finite(12.5) by {
      assert DigitsValue("12") == 12 by {
        assert "12"[..1] == "1";
        assert "1"[..0] == "";
      }
      assert "5"[..0] == "";
      assert Pow10(1) == 10;
    }
  }

  /** Surrounding blanks are ignored. */
  lemma PaddedTextExample()
    ensures StringToNumber(" 40 ") == Finite(40.0)
  {
    assert Trim(" 40 ") == "40" by {
      assert TrimStart(" 40 ") == TrimStart("40 ") by {
        assert " 40 "[1..] == "40 ";
      }
      NoSpaceStart("40 ");
      assert TrimEnd("40 ") == TrimEnd("40") by {
        assert "40 "[..2] == "40";
      }
      NoSpaceTrim("40");
    }
    assert DigitsValue("40") == 40 by {
      assert "40"[..1] == "4";
      assert "4"[..0] == "";
    }
    DigitsRoundTrip("40");
  }

  /** The empty string is 0 and a leading minus sign negates. */
  lemma SignedTextExamples()
    ensures StringToNumber("") == Finite(0.0)
    ensures StringToNumber("-3") == Finite(-3.0)
  {
    NoSpaceTrim("-3");
    TrimmedIsSigned("-3");
    assert "-3"[1..] == "3";
    assert "3"[0] == '3';
    DigitsDecimal("3");
  }

  /** Text that is not a number becomes NaN, so `Number(v) || 0` counts it
      (like `undefined` and `null`) as 0. */
  lemma NonNumericTextExamples()
    ensures StringToNumber("abc") == NaN
    ensures StringToNumber(".") == NaN
    ensures Coerce(Str("abc")) == 0.0
    ensures Coerce(Undefined) == 0.0
    ensures Coerce(Null) == 0.0
  {
    LettersAreNaN();
    LoneDotIsNaN();
  }

  lemma LettersAreNaN()
    ensures StringToNumber("abc") == NaN
  {
    NoSpaceTrim("abc");
    TrimmedIsSigned("abc");
    Unsigned("abc");
    assert FirstIndexOf("abc", '.') == 3;
    assert "abc"[..3] == "abc";
    assert !IsDigit("abc"[0]);
  }

  lemma LoneDotIsNaN()
    ensures StringToNumber(".") == NaN
  {
    NoSpaceTrim(".");
    TrimmedIsSigned(".");
    Unsigned(".");
    assert FirstIndexOf(".", '.') == 0;
    assert "."[..0] == "" && "."[1..] == "";
  }
}

=== FILE: seqs.dfy ===
/** The list operations the screens are built from: `Array.prototype.filter`
    and `reduce`/`forEach` sums, with the facts the ledger needs about them. */
module Seqs {

  import opened Wrappers

  /** `a` is `b` with some elements left out, the rest in their order. */
  ghost predicate IsSubsequence<T>(a: seq<T>, b: seq<T>)
    decreases |b|
  {
    if |b| == 0 then |a| == 0
    else IsSubsequence(a, b[1..]) || (|a| > 0 && a[0] == b[0] && IsSubsequence(a[1..], b[1..]))
  }

  /** `s.filter(p)`. */
  function Filter<T(!new)>(s: seq<T>, p: T -> bool): (r: seq<T>)
    ensures |r| <= |s|
    ensures forall x :: x in r <==> x in s && p(x)
  {
    if |s| == 0 then []
    else (if p(s[0]) then [s[0]] else []) + Filter(s[1..], p)
  }

  /** The filtered list keeps every element satisfying `p` as often as it
      occurs, drops the others, and keeps the original order. */
  lemma {:induction false} FilterKeeps<T(!new)>(s: seq<T>, p: T -> bool)
    ensures forall x :: multiset(Filter(s, p))[x] == if p(x) then multiset(s)[x] else 0
    ensures IsSubsequence(Filter(s, p), s)
  {
    if |s| > 0 {
      FilterKeeps(s[1..], p);
      var rest := Filter(s[1..], p);
      assert s == [s[0]] + s[1..];
      assert multiset(s) == multiset{s[0]} + multiset(s[1..]);
      if p(s[0]) {
        assert Filter(s, p) == [s[0]] + rest;
        assert multiset(Filter(s, p)) == multiset{s[0]} + multiset(rest);
        assert Filter(s, p)[1..] == rest;
      } else {
        assert Filter(s, p) == rest;
      }
    }
  }

  /** Filtering twice with the same predicate is filtering once. */
  lemma {:induction false} FilterIdempotent<T(!new)>(s: seq<T>, p: T -> bool)
    ensures Filter(Filter(s, p), p) == Filter(s, p)
  {
    if |s| > 0 {
      FilterIdempotent(s[1..], p);
      var r := Filter(s, p);
      if p(s[0]) {
        assert r == [s[0]] + Filter(s[1..], p);
        assert r[0] == s[0] && r[1..] == Filter(s[1..], p);
        assert Filter(r, p) == [s[0]] + Filter(r[1..], p);
      } else {
        assert r == Filter(s[1..], p);
      }
    }
  }

  /** Predicates that agree on every element keep the same elements. */
  lemma {:induction false} FilterPointwise<T(!new)>(s: seq<T>, p: T -> bool, q: T -> bool)
    requires forall x :: x in s ==> p(x) == q(x)
    ensures Filter(s, p) == Filter(s, q)
  {
    if |s| > 0 {
      assert s[0] in s;
      FilterPointwise(s[1..], p, q);
    }
  }

  /** A predicate that holds of every element keeps the whole list. */
  lemma {:induction false} FilterAll<T(!new)>(s: seq<T>, p: T -> bool)
    requires forall x :: x in s ==> p(x)
    ensures Filter(s, p) == s
  {
    if |s| > 0 {
      FilterAll(s[1..], p);
      assert s == [s[0]] + s[1..];
    }
  }

  /** The left-to-right sum `s.reduce((acc, x) => acc + f(x), 0)`. */
  function Sum<T>(s: seq<T>, f: T -> real): real {
    if |s| == 0 then 0.0 else Sum(s[..|s| - 1], f) + f(s[|s| - 1])
  }

  /** `f` where `p` holds and 0 elsewhere. */
  function Masked<T>(p: T -> bool, f: T -> real): T -> real {
    x => if p(x) then f(x) else 0.0
  }

  lemma {:induction false} SumConcat<T>(a: seq<T>, b: seq<T>, f: T -> real)
    ensures Sum(a + b, f) == Sum(a, f) + Sum(b, f)
    decreases |b|
  {
    if |b| == 0 {
      assert a + b == a;
    } else {
      SumConcat(a, b[..|b| - 1], f);
      assert (a + b)[..|a + b| - 1] == a + b[..|b| - 1];
    }
  }

  lemma SumSingleton<T>(x: T, f: T -> real)
    ensures Sum([x], f) == f(x)
  {
    assert [x][..0] == [];
  }

  /** The sum taken from the front: the first element plus the rest. */
  lemma SumFront<T>(s: seq<T>, f: T -> real)
    requires |s| > 0
    ensures Sum(s, f) == f(s[0]) + Sum(s[1..], f)
  {
    assert s == [s[0]] + s[1..];
    SumConcat([s[0]], s[1..], f);
    SumSingleton(s[0], f);
  }

  /** Taking one element out of the middle takes its term out of the sum. */
  lemma SumMiddle<T>(a: seq<T>, x: T, b: seq<T>, f: T -> real)
    ensures Sum(a + [x] + b, f) == Sum(a + b, f) + f(x)
  {
    SumConcat(a + [x], b, f);
    SumConcat(a, [x], f);
    SumSingleton(x, f);
    SumConcat(a, b, f);
  }

  /** Removing the element at `i` removes its term from the sum. */
  lemma SumRemove<T>(s: seq<T>, i: int, f: T -> real)
    requires 0 <= i < |s|
    ensures Sum(s, f) == Sum(s[..i] + s[i + 1..], f) + f(s[i])
  {
    SplitAt(s, i);
    SumMiddle(s[..i], s[i], s[i + 1..], f);
  }

  /** A list is its part before `i`, its element at `i` and the rest. */
  lemma SplitAt<T>(s: seq<T>, i: int)
    requires 0 <= i < |s|
    ensures s == s[..i] + [s[i]] + s[i + 1..]
  {
  }

  /** Taking the last element off one list and a matching element out of
      a permutation of it leaves permutations of each other. */
  lemma RemoveMatching<T>(a: seq<T>, b: seq<T>, i: int)
    requires multiset(a) == multiset(b)
    requires |a| > 0 && 0 <= i < |b| && b[i] == a[|a| - 1]
    ensures multiset(a[..|a| - 1]) == multiset(b[..i] + b[i + 1..])
  {
    var x := a[|a| - 1];
    var front, back := b[..i], b[i + 1..];
    assert a == a[..|a| - 1] + [x];
    assert multiset(b) == multiset(front) + multiset{x} + multiset(back) by {
      assert b == front + [x] + back;
    }
    assert multiset(front + back) == multiset(front) + multiset(back);
    assert multiset(a) == multiset(a[..|a| - 1]) + multiset{x};
    forall y
      ensures multiset(a[..|a| - 1])[y] == multiset(front + back)[y]
    {
      assert multiset(a)[y] == multiset(a[..|a| - 1])[y] + multiset{x}[y];
      assert multiset(b)[y] == multiset(front + back)[y] + multiset{x}[y];
    }
  }

  /** A sum does not depend on the order of the list. */
  lemma {:induction false} SumPermutation<T>(a: seq<T>, b: seq<T>, f: T -> real)
    requires multiset(a) == multiset(b)
    ensures Sum(a, f) == Sum(b, f)
    decreases |a|
  {
    if |a| == 0 {
      assert |b| == |multiset(b)| == 0;
    } else {
      var x := a[|a| - 1];
      assert x in multiset(b) by {
        assert a == a[..|a| - 1] + [x];
      }
      var i :| 0 <= i < |b| && b[i] == x;
      RemoveMatching(a, b, i);
      SumPermutation(a[..|a| - 1], b[..i] + b[i + 1..], f);
      SumRemove(b, i, f);
    }
  }

  /** Sums of functions that agree on every element are equal. */
  lemma {:induction false} SumPointwise<T>(s: seq<T>, f: T -> real, g: T -> real)
    requires forall x :: x in s ==> f(x) == g(x)
    ensures Sum(s, f) == Sum(s, g)
  {
    if |s| > 0 {
      assert forall x :: x in s[..|s| - 1] ==> x in s;
      SumPointwise(s[..|s| - 1], f, g);
    }
  }

  /** The sum of a pointwise sum is the sum of the sums. */
  lemma {:induction false} SumAdd<T>(s: seq<T>, f: T -> real, g: T -> real, h: T -> real)
    requires forall x :: h(x) == f(x) + g(x)
    ensures Sum(s, h) == Sum(s, f) + Sum(s, g)
  {
    if |s| > 0 {
      SumAdd(s[..|s| - 1], f, g, h);
    }
  }

  /** Summing over the filtered list is summing the masked function over
      the whole list: `filter(p).reduce(f)` needs only one pass. */
  lemma {:induction false} SumFilter<T(!new)>(s: seq<T>, p: T -> bool, f: T -> real)
    ensures Sum(Filter(s, p), f) == Sum(s, Masked(p, f))
  {
    if |s| > 0 {
      SumFilter(s[1..], p, f);
      SumFront(s, Masked(p, f));
      var r := Filter(s, p);
      if p(s[0]) {
        assert r == [s[0]] + Filter(s[1..], p);
        assert r[0] == s[0] && r[1..] == Filter(s[1..], p);
        SumFront(r, f);
      } else {
        assert r == Filter(s[1..], p);
      }
    }
  }

  /** `f` on the elements whose key is `m`, 0 elsewhere: one group of a
      grouping by `key`. Elements without a key belong to no group. */
  ghost function Bucket<T, K>(key: T -> Option<K>, f: T -> real, m: K): T -> real {
    x => if key(x) == Some(m) then f(x) else 0.0
  }

  /** `f` on the elements that have a key, 0 on the others. */
  ghost function Keyed<T, K>(key: T -> Option<K>, f: T -> real): T -> real {
    x => if key(x).Some? then f(x) else 0.0
  }

  /** Some element of `s` has key `m`. */
  ghost predicate HasKey<T, K>(s: seq<T>, key: T -> Option<K>, m: K) {
    exists i :: 0 <= i < |s| && key(s[i]) == Some(m)
  }

  ghost predicate Distinct<K>(names: seq<K>) {
    forall i, j :: 0 <= i < j < |names| ==> names[i] != names[j]
  }

  /** The group totals of `s` for the groups named in `names`, added up. */
  ghost function GroupTotals<T, K>(names: seq<K>, s: seq<T>, key: T -> Option<K>, f: T -> real): real {
    if |names| == 0 then 0.0
    else Sum(s, Bucket(key, f, names[0])) + GroupTotals(names[1..], s, key, f)
  }

  /** The share of one element over the groups named in `names`. */
  ghost function GroupShares<T, K>(names: seq<K>, x: T, key: T -> Option<K>, f: T -> real): real {
    if |names| == 0 then 0.0
    else Bucket(key, f, names[0])(x) + GroupShares(names[1..], x, key, f)
  }

  /** A group no element belongs to totals 0. */
  lemma {:induction false} BucketEmpty<T, K>(s: seq<T>, key: T -> Option<K>, f: T -> real, m: K)
    requires !HasKey(s, key, m)
    ensures Sum(s, Bucket(key, f, m)) == 0.0
  {
    if |s| > 0 {
      var s' := s[..|s| - 1];
      assert forall i :: 0 <= i < |s'| ==> s'[i] == s[i];
      assert !HasKey(s', key, m);
      assert key(s[|s| - 1]) != Some(m);
      BucketEmpty(s', key, f, m);
    }
  }

  lemma {:induction false} GroupTotalsEmpty<T, K>(names: seq<K>, key: T -> Option<K>, f: T -> real)
    ensures GroupTotals(names, [], key, f) == 0.0
  {
    if |names| > 0 {
      GroupTotalsEmpty(names[1..], key, f);
    }
  }

  /** Appending one element adds its shares to the group totals. */
  lemma {:induction false} GroupTotalsSnoc<T, K>(names: seq<K>, s: seq<T>, x: T, key: T -> Option<K>, f: T -> real)
    ensures GroupTotals(names, s + [x], key, f) == GroupTotals(names, s, key, f) + GroupShares(names, x, key, f)
  {
    if |names| > 0 {
      GroupTotalsSnoc(names[1..], s, x, key, f);
      assert (s + [x])[..|s + [x]| - 1] == s;
    }
  }

  lemma {:induction false} GroupSharesOutside<T, K>(names: seq<K>, x: T, key: T -> Option<K>, f: T -> real)
    requires key(x).None? || key(x).value !in names
    ensures GroupShares(names, x, key, f) == 0.0
  {
    if |names| > 0 {
      GroupSharesOutside(names[1..], x, key, f);
    }
  }

  /** With distinct names, an element is counted in exactly the group of
      its key, if that group is named, and in no other. */
  lemma {:induction false} GroupSharesOnce<T, K>(names: seq<K>, x: T, key: T -> Option<K>, f: T -> real)
    requires Distinct(names)
    requires key(x).Some? ==> key(x).value in names
    ensures GroupShares(names, x, key, f) == Keyed(key, f)(x)
  {
    if |names| == 0 || key(x).None? {
      GroupSharesOutside(names, x, key, f);
    } else if names[0] == key(x).value {
      assert key(x).value !in names[1..] by {
        forall j | 0 <= j < |names[1..]|
          ensures names[1..][j] != key(x).value
        {
          assert names[1..][j] == names[j + 1];
        }
      }
      GroupSharesOutside(names[1..], x, key, f);
    } else {
      assert Distinct(names[1..]) by {
        forall i, j | 0 <= i < j < |names[1..]|
          ensures names[1..][i] != names[1..][j]
        {
          assert names[1..][i] == names[i + 1] && names[1..][j] == names[j + 1];
        }
      }
      GroupSharesOnce(names[1..], x, key, f);
    }
  }

  /** Grouping loses nothing: when the names are distinct and cover every
      key that occurs, the group totals add up to the total over all
      elements that have a key. */
  lemma {:induction false} GroupTotalsPartition<T, K>(names: seq<K>, s: seq<T>, key: T -> Option<K>, f: T -> real)
    requires Distinct(names)
    requires forall i :: 0 <= i < |s| && key(s[i]).Some? ==> key(s[i]).value in names
    ensures GroupTotals(names, s, key, f) == Sum(s, Keyed(key, f))
    decreases |s|
  {
    if |s| == 0 {
      GroupTotalsEmpty(names, key, f);
    } else {
      var s' := s[..|s| - 1];
      var x := s[|s| - 1];
      assert s == s' + [x];
      GroupTotalsPartition(names, s', key, f);
      GroupTotalsSnoc(names, s', x, key, f);
      GroupSharesOnce(names, x, key, f);
    }
  }

  /** Sums over two lists of the same length whose elements agree under
      `f` position by position are equal. */
  lemma {:induction false} SumIndexwise<T>(a: seq<T>, b: seq<T>, f: T -> real)
    requires |a| == |b|
    requires forall k :: 0 <= k < |a| ==> f(a[k]) == f(b[k])
    ensures Sum(a, f) == Sum(b, f)
  {
    if |a| > 0 {
      SumIndexwise(a[..|a| - 1], b[..|b| - 1], f);
    }
  }

  /** A permutation has the same keys. */
  lemma HasKeyPermutation<T, K>(a: seq<T>, b: seq<T>, key: T -> Option<K>, m: K)
    requires multiset(a) == multiset(b)
    ensures HasKey(a, key, m) <==> HasKey(b, key, m)
  {
    if HasKey(a, key, m) {
      var i :| 0 <= i < |a| && key(a[i]) == Some(m);
      assert a[i] in multiset(b);
      var j :| 0 <= j < |b| && b[j] == a[i];
    }
    if HasKey(b, key, m) {
      var j :| 0 <= j < |b| && key(b[j]) == Some(m);
      assert b[j] in multiset(a);
      var i :| 0 <= i < |a| && a[i] == b[j];
    }
  }

  lemma SumThree<T>(x: T, y: T, z: T, f: T -> real)
    ensures Sum([x, y, z], f) == f(x) + f(y) + f(z)
  {
    assert [x, y, z][..2] == [x, y];
    assert [x, y][..1] == [x];
    SumSingleton(x, f);
    assert Sum([x, y], f) == f(x) + f(y);
  }
}

=== FILE: text.dfy ===
/** String operations the screens rely on: `toLowerCase`, `includes`,
    and the default ordering `Array.prototype.sort` uses for strings. */
module Text {

  /** `toLowerCase` on one character (the ASCII letters; other scripts'
      case mappings are not modelled). */
  function LowerChar(c: char): char {
    if 'A' <= c <= 'Z' then (c as int + 32) as char else c
  }

  function Lower(s: string): (r: string)
    ensures |r| == |s|
    ensures forall i :: 0 <= i < |s| ==> r[i] == LowerChar(s[i])
  {
    if |s| == 0 then "" else [LowerChar(s[0])] + Lower(s[1..])
  }

  lemma LowerIdempotent(s: string)
    ensures Lower(Lower(s)) == Lower(s)
  {
  }

  /** `sub` occurs in `s` starting at index `i`. */
  ghost predicate OccursAt(s: string, sub: string, i: int) {
    0 <= i && i + |sub| <= |s| && s[i..i + |sub|] == sub
  }

  /** `s.includes(sub)`, as a left-to-right search. */
  predicate Contains(s: string, sub: string)
    decreases |s|
  {
    (|sub| <= |s| && s[..|sub|] == sub) || (|s| > 0 && Contains(s[1..], sub))
  }

  /** An occurrence at index `i` is found by the search. */
  lemma {:induction false} OccursFound(s: string, sub: string, i: int)
    requires OccursAt(s, sub, i)
    ensures Contains(s, sub)
    decreases i
  {
    if i == 0 {
      assert s[..|sub|] == s[0..0 + |sub|];
    } else {
      assert s[1..][i - 1..i - 1 + |sub|] == s[i..i + |sub|];
      OccursFound(s[1..], sub, i - 1);
    }
  }

  /** The search finds `sub` exactly when it occurs at some index. */
  lemma {:induction false} ContainsIffOccurs(s: string, sub: string)
    ensures Contains(s, sub) <==> exists i :: OccursAt(s, sub, i)
    decreases |s|
  {
    if |sub| <= |s| && s[..|sub|] == sub {
      assert s[0..0 + |sub|] == s[..|sub|];
      assert OccursAt(s, sub, 0);
    } else if |s| > 0 && Contains(s[1..], sub) {
      ContainsIffOccurs(s[1..], sub);
      var i :| OccursAt(s[1..], sub, i);
      assert s[1..][i..i + |sub|] == s[i + 1..i + 1 + |sub|];
      assert OccursAt(s, sub, i + 1);
    }
    if exists i :: OccursAt(s, sub, i) {
      var i :| OccursAt(s, sub, i);
      OccursFound(s, sub, i);
    }
  }

  /** Every string includes the empty string. */
  lemma ContainsEmpty(s: string)
    ensures Contains(s, "")
  {
    assert s[..0] == "";
  }

  /** Strict lexicographic order on code points: a proper prefix comes
      first, otherwise the first differing character decides. */
  predicate Less(a: string, b: string)
    decreases |a|
  {
    if |a| == 0 then |b| > 0
    else if |b| == 0 then false
    else if a[0] != b[0] then a[0] < b[0]
    else Less(a[1..], b[1..])
  }

  lemma {:induction false} LessIrreflexive(a: string)
    ensures !Less(a, a)
    decreases |a|
  {
    if |a| > 0 {
      LessIrreflexive(a[1..]);
    }
  }

  lemma {:induction false} LessTransitive(a: string, b: string, c: string)
    requires Less(a, b) && Less(b, c)
    ensures Less(a, c)
    decreases |a|
  {
    if |a| > 0 && a[0] == b[0] && b[0] == c[0] {
      LessTransitive(a[1..], b[1..], c[1..]);
    }
  }

  lemma {:induction false} LessTotal(a: string, b: string)
    ensures a == b || Less(a, b) || Less(b, a)
    decreases |a|
  {
    if |a| > 0 && |b| > 0 && a[0] == b[0] {
      LessTotal(a[1..], b[1..]);
      if a[1..] == b[1..] {
        assert a == [a[0]] + a[1..] && b == [b[0]] + b[1..];
      }
    }
  }

  lemma LessAsymmetric(a: string, b: string)
    requires Less(a, b)
    ensures !Less(b, a)
  {
    if Less(b, a) {
      LessTransitive(a, b, a);
      LessIrreflexive(a);
    }
  }

  /** Strictly ascending, hence free of duplicates. */
  ghost predicate StrictlySorted(s: seq<string>) {
    forall i, j :: 0 <= i < j < |s| ==> Less(s[i], s[j])
  }

  lemma SortedDistinct(s: seq<string>, i: int, j: int)
    requires StrictlySorted(s)
    requires 0 <= i < |s| && 0 <= j < |s| && i != j
    ensures s[i] != s[j]
  {
    if i < j {
      LessIrreflexive(s[i]);
    } else {
      LessIrreflexive(s[j]);
    }
  }

  /** Inserts `k` into a strictly ascending list at its place. */
  function Insert(s: seq<string>, k: string): (r: seq<string>)
    requires StrictlySorted(s)
    requires k !in s
    ensures StrictlySorted(r)
    ensures forall x :: x in r <==> x in s || x == k
    ensures |r| == |s| + 1
  {
    if |s| == 0 then [k]
    else if Less(k, s[0]) then
      assert forall j :: 0 < j < |s| ==> Less(k, s[j]) by {
        forall j | 0 < j < |s|
          ensures Less(k, s[j])
        {
          LessTransitive(k, s[0], s[j]);
        }
      }
      [k] + s
    else
      LessTotal(k, s[0]);
      var rest := Insert(s[1..], k);
      assert forall j :: 0 <= j < |rest| ==> Less(s[0], rest[j]) by {
        forall j | 0 <= j < |rest|
          ensures Less(s[0], rest[j])
        {
          assert rest[j] in rest;
          if rest[j] != k {
            var m :| 0 <= m < |s[1..]| && s[1..][m] == rest[j];
            assert s[m + 1] == rest[j];
          }
        }
      }
      assert s == [s[0]] + s[1..];
      [s[0]] + rest
  }

  /** No element of an ascending list comes before its head. */
  lemma HeadIsLeast(s: seq<string>, x: string)
    requires StrictlySorted(s) && x in s
    ensures !Less(x, s[0])
  {
    var j :| 0 <= j < |s| && s[j] == x;
    if j == 0 {
      LessIrreflexive(x);
    } else {
      LessAsymmetric(s[0], x);
    }
  }

  /** Two strictly ascending lists with the same elements are equal: the
      sorted key list is determined by its key set. */
  lemma {:induction false} SortedUnique(a: seq<string>, b: seq<string>)
    requires StrictlySorted(a) && StrictlySorted(b)
    requires forall x :: x in a <==> x in b
    ensures a == b
    decreases |a|
  {
    if |a| > 0 {
      assert a[0] in a;
    }
    if |b| > 0 {
      assert b[0] in b;
    }
    if |a| > 0 && |b| > 0 {
      assert a[0] in a && b[0] in b;
      HeadIsLeast(a, b[0]);
      HeadIsLeast(b, a[0]);
      LessTotal(a[0], b[0]);
      forall x
        ensures x in a[1..] <==> x in b[1..]
      {
        if x in a[1..] {
          var i :| 1 <= i < |a| && a[i] == x;
          SortedDistinct(a, 0, i);
          assert x in b && x != b[0];
          var k :| 0 <= k < |b| && b[k] == x;
          assert k != 0;
          assert b[1..][k - 1] == x;
        }
        if x in b[1..] {
          var i :| 1 <= i < |b| && b[i] == x;
          SortedDistinct(b, 0, i);
          assert x in a && x != a[0];
          var k :| 0 <= k < |a| && a[k] == x;
          assert k != 0;
          assert a[1..][k - 1] == x;
        }
      }
      SortedUnique(a[1..], b[1..]);
      assert a == [a[0]] + a[1..] && b == [b[0]] + b[1..];
    }
  }

  /** `Object.keys(m).sort()` for a set of distinct keys. */
  method SortKeys(keys: set<string>) returns (sorted: seq<string>)
    ensures StrictlySorted(sorted)
    ensures forall x :: x in sorted <==> x in keys
    ensures |sorted| == |keys|
  {
    sorted := [];
    var rest := keys;
    while rest != {}
      invariant StrictlySorted(sorted)
      invariant forall x :: x in sorted <==> x in keys && x !in rest
      invariant rest <= keys
      invariant |sorted| + |rest| == |keys|
      decreases rest
    {
      var k :| k in rest;
      sorted := Insert(sorted, k);
      rest := rest - {k};
    }
  }
}

=== FILE: transaction_form.dfy ===
/** The transaction entry form: field validation, the payload it sends to
    storage, the edit-mode load, and the category/subcategory rules. */
module TransactionForm {

  import opened Wrappers
  import opened JsValues
  import opened Constants
  import opened Domain

  /** The form's fields, all as entered text; `txType` is the `type`
      select and `itemDescription` the description input. */
  datatype FormValues = FormValues(
    date: string,
    txType: string,
    category: string,
    subcategory: string,
    itemDescription: string,
    amount: string,
    notes: Option<string>)

  datatype FormField = DateField | TypeField | CategoryField | DescriptionField | AmountField

  /** The values a new entry starts from. */
  function Defaults(today: string): FormValues {
    FormValues(today, "expense", "", "", "", "", Some(""))
  }

  /** An amount is accepted when it reads as a number (not NaN) and that
      number is strictly positive. */
  predicate ValidAmount(amount: string) {
    StringToNumber(amount).Finite? && StringToNumber(amount).value > 0.0
  }

  /** The fields the schema rejects. */
  function FormErrors(f: FormValues): (r: set<FormField>)
    ensures r == {} <==> f.date != "" && ParseType(f.txType).Some? && f.category != ""
                         && f.itemDescription != "" && ValidAmount(f.amount)
  {
    (if f.date == "" then {DateField} else {})
    + (if ParseType(f.txType).None? then {TypeField} else {})
    + (if f.category == "" then {CategoryField} else {})
    + (if f.itemDescription == "" then {DescriptionField} else {})
    + (if !ValidAmount(f.amount) then {AmountField} else {})
  }

  /** A fresh form with today's date filled in still lacks a category, a
      description and an amount; its type is already valid. */
  lemma DefaultsNeedDetails(today: string)
    requires today != ""
    ensures FormErrors(Defaults(today)) == {CategoryField, DescriptionField, AmountField}
  {
    assert StringToNumber("") == Finite(0.0) by {
      SignedTextExamples();
    }
  }

  /** What is sent to storage on save. */
  datatype Payload = Payload(
    date: string,
    txType: TxType,
    category: string,
    subcategory: string,
    description: string,
    debit: real,
    credit: real,
    notes: string)

  /** The ledger invariant: an expense is all debit, anything else all
      credit, and the amount on that side is positive. */
  predicate OneSideMatchesType(p: Payload) {
    if p.txType == Expense then p.debit > 0.0 && p.credit == 0.0
    else p.debit == 0.0 && p.credit > 0.0
  }

  /** The amount a payload carries, read from the side its type uses. */
  function PayloadAmount(p: Payload): real {
    if p.txType == Expense then p.debit else p.credit
  }

  /** `onSubmit` after validation: the amount goes to the debit side of
      an expense and to the credit side of anything else; the text fields
      are copied; missing notes become the empty string. */
  function Submit(f: FormValues): (r: Result<Payload, set<FormField>>)
    ensures r.Failure? <==> FormErrors(f) != {}
    ensures r.Failure? ==> r.error == FormErrors(f)
    ensures r.Success? ==>
      && OneSideMatchesType(r.value)
      && PayloadAmount(r.value) == StringToNumber(f.amount).value
      && TypeName(r.value.txType) == f.txType
      && r.value.date == f.date && r.value.category == f.category
      && r.value.subcategory == f.subcategory && r.value.description == f.itemDescription
      && r.value.notes == f.notes.GetOr("")
  {
    var errors := FormErrors(f);
    if errors != {} then Failure(errors)
    else
      var amountVal := StringToNumber(f.amount).value;
      var txType := ParseType(f.txType).value;
      var isExpense := txType == Expense;
      Success(Payload(
        f.date, txType, f.category, f.subcategory, f.itemDescription,
        if isExpense then amountVal else 0.0,
        if isExpense then 0.0 else amountVal,
        f.notes.GetOr("")))
  }

  /** `value || null`: an empty string is stored as null. */
  function OrNull(s: string): (r: Option<string>)
    ensures r.None? <==> s == ""
    ensures r.GetOr("") == s
  {
    if s == "" then None else Some(s)
  }

  /** The row an insert of the payload creates, with the id storage
      assigns; empty subcategory and notes are stored as null. */
  function Insert(p: Payload, id: string): (t: Transaction)
    ensures t.id == id && t.txType == p.txType && t.batchId.None?
    ensures ToNumber(t.debit) == Finite(p.debit) && ToNumber(t.credit) == Finite(p.credit)
  {
    Transaction(id, Some(p.date), p.txType, p.category, OrNull(p.subcategory), p.description,
                Num(Finite(p.debit)), Num(Finite(p.credit)), OrNull(p.notes), None)
  }

  /** A saved form entry satisfies the ledger invariant as the dashboard
      reads it. */
  lemma InsertedSidesMatch(f: FormValues, id: string)
    requires Submit(f).Success?
    ensures SidesMatchType(Insert(Submit(f).value, id))
  {
  }

  /** The form's values in edit mode, before the amount is turned back
      into text. */
  datatype EditValues = EditValues(
    date: Option<string>,
    txType: string,
    category: string,
    subcategory: string,
    itemDescription: string,
    amount: Value,
    notes: string)

  /** `loadTransaction`: the amount is the debit of an expense and the
      credit of anything else; missing subcategory and notes load as "". */
  function LoadForEdit(t: Transaction): EditValues {
    EditValues(t.date, TypeName(t.txType), t.category, t.subcategory.GetOr(""), t.description,
               if t.txType == Expense then t.debit else t.credit, t.notes.GetOr(""))
  }

  /** Loading a saved entry for edit gives back what was entered: the
      same text fields and type, and the amount as a number. */
  lemma EditLoadRoundTrip(f: FormValues, id: string)
    requires Submit(f).Success?
    ensures LoadForEdit(Insert(Submit(f).value, id))
      == EditValues(Some(f.date), f.txType, f.category, f.subcategory, f.itemDescription,
                    Num(StringToNumber(f.amount)), f.notes.GetOr(""))
  {
  }

  /** The edit form as shown, once the amount is displayed as
      `amountText` and the category effect has run on the loaded type:
      a category the type does not offer is cleared with its
      subcategory. */
  function EditForm(e: EditValues, amountText: string): (r: FormValues)
    ensures r.category in CategoriesFor(e.txType) || (r.category == "" && r.subcategory == "")
    ensures e.category in CategoriesFor(e.txType) ==> r.category == e.category && r.subcategory == e.subcategory
  {
    var choice := ResetCategory(e.txType, CategoryChoice(e.category, e.subcategory));
    FormValues(e.date.GetOr(""), e.txType, choice.category, choice.subcategory, e.itemDescription,
               amountText, Some(e.notes))
  }

  /** Saving a loaded entry unchanged reproduces the original payload,
      provided its category is one its type offers (as the category
      select and its reset effect ensure for entries made in the form)
      and the displayed amount text reads back as the amount. */
  lemma EditResubmitRoundTrip(f: FormValues, id: string, amountText: string)
    requires Submit(f).Success?
    requires f.category in CategoriesFor(f.txType)
    requires StringToNumber(amountText) == ToNumber(LoadForEdit(Insert(Submit(f).value, id)).amount)
    ensures Submit(EditForm(LoadForEdit(Insert(Submit(f).value, id)), amountText)) == Submit(f)
  {
    EditLoadRoundTrip(f, id);
    TypeNameRoundTrip(ParseType(f.txType).value);
  }

  /** An entry whose category its type does not offer loses the category
      on load, and saving it unchanged is refused for a missing
      category. */
  lemma EditClearsForeignCategory(f: FormValues, id: string, amountText: string)
    requires Submit(f).Success?
    requires f.category !in CategoriesFor(f.txType)
    ensures Submit(EditForm(LoadForEdit(Insert(Submit(f).value, id)), amountText)).Failure?
    ensures CategoryField in Submit(EditForm(LoadForEdit(Insert(Submit(f).value, id)), amountText)).error
  {
    EditLoadRoundTrip(f, id);
    TypeNameRoundTrip(ParseType(f.txType).value);
  }

  /** For a whole amount, the text `String(n)` shows is its digits, and
      re-saving needs no assumption about the amount text. */
  lemma EditResubmitWholeAmount(f: FormValues, id: string, n: nat)
    requires Submit(f).Success?
    requires f.category in CategoriesFor(f.txType)
    requires StringToNumber(f.amount) == Finite(n as real)
    ensures Submit(EditForm(LoadForEdit(Insert(Submit(f).value, id)), NatString(n))) == Submit(f)
  {
    EditLoadRoundTrip(f, id);
    WholeNumberRoundTrip(n);
    EditResubmitRoundTrip(f, id, NatString(n));
  }

  /** A wage expense of 5 entered, saved, loaded and saved again gives
      the same payload. */
  lemma EditResubmitExample(id: string)
    ensures Submit(FormValues("2024-01-01", "expense", "Labor", "", "wages", "5", None)).Success?
    ensures var f := FormValues("2024-01-01", "expense", "Labor", "", "wages", "5", None);
      Submit(EditForm(LoadForEdit(Insert(Submit(f).value, id)), "5")) == Submit(f)
  {
    var f := FormValues("2024-01-01", "expense", "Labor", "", "wages", "5", None);
    assert NatString(5) == "5";
    WholeNumberRoundTrip(5);
    assert ParseType("expense") == Some(Expense);
    assert "Labor" in CategoriesFor("expense");
    EditResubmitWholeAmount(f, id, 5);
  }

  /** An expense filed under the funding category "Loan" saves, but on
      edit its category is cleared and the unchanged re-save is refused. */
  lemma EditForeignCategoryExample(id: string)
    ensures Submit(FormValues("2024-01-01", "expense", "Loan", "", "x", "5", None)).Success?
    ensures var f := FormValues("2024-01-01", "expense", "Loan", "", "x", "5", None);
      Submit(EditForm(LoadForEdit(Insert(Submit(f).value, id)), "5")).Failure?
  {
    var f := FormValues("2024-01-01", "expense", "Loan", "", "x", "5", None);
    assert NatString(5) == "5";
    WholeNumberRoundTrip(5);
    assert ParseType("expense") == Some(Expense);
    assert "Loan" !in CategoriesFor("expense");
    EditClearsForeignCategory(f, id, "5");
  }

  /** A whole amount entered as its digits is accepted exactly when it is
      not 0, and its edit text reads back unchanged. */
  lemma WholeAmountAccepted(n: nat)
    ensures ValidAmount(NatString(n)) <==> n > 0
    ensures StringToNumber(NatString(n)) == Finite(n as real)
  {
    WholeNumberRoundTrip(n);
  }

  /** The categories a type string offers: its list, or none for a string
      that is not a type (`CATEGORIES[type] || []`). */
  function CategoriesFor(typeName: string): (r: seq<string>)
    ensures ParseType(typeName).Some? ==> r == Categories(ParseType(typeName).value)
    ensures ParseType(typeName).None? ==> r == []
  {
    match ParseType(typeName)
    case Some(t) => Categories(t)
    case None => []
  }

  datatype CategoryChoice = CategoryChoice(category: string, subcategory: string)

  /** The effect run when the type (or category) changes: a category the
      type does not allow is cleared together with the subcategory. */
  function ResetCategory(typeName: string, c: CategoryChoice): (r: CategoryChoice)
    ensures r.category in CategoriesFor(typeName) || r == CategoryChoice("", "")
    ensures c.category in CategoriesFor(typeName) ==> r == c
    ensures c.category !in CategoriesFor(typeName) ==> r == CategoryChoice("", "")
  {
    if c.category in CategoriesFor(typeName) then c else CategoryChoice("", "")
  }

  /** No type allows the empty category, so a cleared choice stays cleared
      and running the effect again changes nothing. */
  lemma ResetCategoryIdempotent(typeName: string, c: CategoryChoice)
    ensures ResetCategory(typeName, ResetCategory(typeName, c)) == ResetCategory(typeName, c)
    ensures "" !in CategoriesFor(typeName)
  {
    EmptyNeverOffered(typeName);
  }

  /** No type offers the empty category. */
  lemma EmptyNeverOffered(typeName: string)
    ensures "" !in CategoriesFor(typeName)
  {
    match ParseType(typeName)
    case None =>
    case Some(t) =>
      assert forall i :: 0 <= i < |Categories(t)| ==> |Categories(t)[i]| > 0;
  }

  /** The suggested subcategories of a category: its entry when there is
      one, otherwise none. */
  function SubcategoryOptions(category: string): (r: seq<string>)
    ensures category in COMMON_SUBCATEGORIES ==> r == COMMON_SUBCATEGORIES[category]
    ensures category !in COMMON_SUBCATEGORIES ==> r == []
  {
    if category != "" && category in COMMON_SUBCATEGORIES then COMMON_SUBCATEGORIES[category] else []
  }

  /** Subcategories are only ever suggested under an expense category;
      a funding or revenue category never offers any. */
  lemma SubcategoriesOnlyForExpenses(t: TxType, category: string)
    requires category in Categories(t)
    requires t != Expense
    ensures SubcategoryOptions(category) == []
  {
  }
}

=== FILE: transaction_list.dfy ===
/** The history screen's search box and type filter. */
module TransactionList {

  import opened Wrappers
  import opened Text
  import opened Seqs
  import opened Constants
  import opened Domain

  /** The notes clause: notes that are missing or empty never match. */
  predicate NotesMatch(t: Transaction, term: string) {
    t.notes.Some? && t.notes.value != "" && Contains(Lower(t.notes.value), Lower(term))
  }

  /** The search term occurs, ignoring case, in the description, the
      category or the notes. */
  predicate MatchesSearch(t: Transaction, term: string) {
    Contains(Lower(t.description), Lower(term))
    || Contains(Lower(t.category), Lower(term))
    || NotesMatch(t, term)
  }

  /** The type filter: "all", or the stored type's name. */
  predicate MatchesType(t: Transaction, filterType: string) {
    filterType == "all" || TypeName(t.txType) == filterType
  }

  function Matcher(term: string, filterType: string): Transaction -> bool {
    (t: Transaction) => MatchesSearch(t, term) && MatchesType(t, filterType)
  }

  /** The rows shown: the ledger's rows that pass both tests, in order. */
  function FilterTransactions(txs: seq<Transaction>, term: string, filterType: string): (r: seq<Transaction>)
    ensures |r| <= |txs|
    ensures forall t :: t in r <==> t in txs && MatchesSearch(t, term) && MatchesType(t, filterType)
  {
    Filter(txs, Matcher(term, filterType))
  }

  /** The shown rows keep the ledger's order, and every matching row is
      shown exactly as often as the ledger holds it. */
  lemma ShownInLedgerOrder(txs: seq<Transaction>, term: string, filterType: string)
    ensures IsSubsequence(FilterTransactions(txs, term, filterType), txs)
    ensures forall t ::
              multiset(FilterTransactions(txs, term, filterType))[t]
                == if MatchesSearch(t, term) && MatchesType(t, filterType) then multiset(txs)[t] else 0
  {
    FilterKeeps(txs, Matcher(term, filterType));
  }

  /** Applying the same search and filter to the shown rows changes
      nothing. */
  lemma FilterTwice(txs: seq<Transaction>, term: string, filterType: string)
    ensures FilterTransactions(FilterTransactions(txs, term, filterType), term, filterType)
         == FilterTransactions(txs, term, filterType)
  {
    FilterIdempotent(txs, Matcher(term, filterType));
  }

  /** With an empty search box and "all" selected every row is shown. */
  lemma NoFilterShowsAll(txs: seq<Transaction>)
    ensures FilterTransactions(txs, "", "all") == txs
  {
    forall t | t in txs
      ensures Matcher("", "all")(t)
    {
      ContainsEmpty(Lower(t.description));
    }
    FilterAll(txs, Matcher("", "all"));
  }

  /** Choosing a type shows only rows of that type; a choice that is
      neither "all" nor a type name shows nothing. */
  lemma TypeFilterSelects(txs: seq<Transaction>, term: string, filterType: string)
    requires filterType != "all"
    ensures forall t :: t in FilterTransactions(txs, term, filterType) ==> ParseType(filterType) == Some(t.txType)
    ensures ParseType(filterType).None? ==> FilterTransactions(txs, term, filterType) == []
  {
    if ParseType(filterType).None? {
      var r := FilterTransactions(txs, term, filterType);
      if |r| > 0 {
        assert r[0] in r;
        TypeNameRoundTrip(r[0].txType);
      }
    }
    forall t | t in FilterTransactions(txs, term, filterType)
      ensures ParseType(filterType) == Some(t.txType)
    {
      TypeNameRoundTrip(t.txType);
    }
  }

  /** Search is case-insensitive: changing the case of the term's ASCII
      letters does not change what is shown. */
  lemma SearchIgnoresCase(txs: seq<Transaction>, term: string, filterType: string)
    ensures FilterTransactions(txs, Lower(term), filterType) == FilterTransactions(txs, term, filterType)
  {
    LowerIdempotent(term);
    FilterPointwise(txs, Matcher(Lower(term), filterType), Matcher(term, filterType));
  }

  /** A row without notes is found only through its description or
      category. */
  lemma MissingNotesNeverMatch(t: Transaction, term: string)
    requires t.notes.None? || t.notes == Some("")
    ensures MatchesSearch(t, term) <==>
      Contains(Lower(t.description), Lower(term)) || Contains(Lower(t.category), Lower(term))
  {
  }
}

=== FILE: turso_adapter.dfy ===
/** The pure parts of the SQL storage adapter: the dynamic UPDATE built
    from a partial transaction, and the numeric coercion of fetched rows. */
module TursoAdapter {

  import opened Wrappers
  import opened JsValues
  import opened Seqs

  /** One `[key, value]` pair of `Object.entries(patch)`. */
  datatype Entry = Entry(key: string, value: Value)

  /** An entry reaches the SET clause unless it names the primary key or
      the creation stamp, or its value is `undefined`. */
  predicate Survives(e: Entry) {
    e.key != "id" && e.key != "created_at" && e.value != Undefined
  }

  /** The statement and its positional arguments. */
  datatype UpdateQuery = UpdateQuery(sets: seq<string>, args: seq<Value>, sql: string)

  function Assignment(key: string): string {
    key + " = ?"
  }

  function Assignments(entries: seq<Entry>): (r: seq<string>)
    ensures |r| == |entries|
    ensures forall i :: 0 <= i < |entries| ==> r[i] == Assignment(entries[i].key)
  {
    if |entries| == 0 then [] else [Assignment(entries[0].key)] + Assignments(entries[1..])
  }

  function Values(entries: seq<Entry>): (r: seq<Value>)
    ensures |r| == |entries|
    ensures forall i :: 0 <= i < |entries| ==> r[i] == entries[i].value
  {
    if |entries| == 0 then [] else [entries[0].value] + Values(entries[1..])
  }

  /** `parts.join(sep)`. */
  function Join(parts: seq<string>, sep: string): string {
    if |parts| == 0 then ""
    else if |parts| == 1 then parts[0]
    else parts[0] + sep + Join(parts[1..], sep)
  }

  const UPDATE_HEAD: string := "\n      UPDATE transactions \n      SET "
  const WHERE_HEAD: string := "\n      WHERE id = "
  const WHERE_TAIL: string := "\n      RETURNING *;\n    "
  const UPDATE_TAIL: string := WHERE_HEAD + "?" + WHERE_TAIL

  /** `updateTransaction` up to the query: `None` (the early `return null`)
      when no entry survives, otherwise one `key = ?` per surviving entry
      in patch order, their values as arguments, and the target id last. */
  function BuildUpdate(id: string, patch: seq<Entry>): (r: Option<UpdateQuery>)
    ensures r.None? <==> forall e :: e in patch ==> !Survives(e)
    ensures r.Some? ==>
      && |r.value.args| == |r.value.sets| + 1
      && r.value.args[|r.value.sets|] == Str(id)
      && r.value.sql == UPDATE_HEAD + Join(r.value.sets, ", ") + UPDATE_TAIL
  {
    var kept := Filter(patch, Survives);
    if |kept| == 0 then
      None
    else
      assert kept[0] in patch;
      var sets := Assignments(kept);
      Some(UpdateQuery(sets, Values(kept) + [Str(id)], UPDATE_HEAD + Join(sets, ", ") + UPDATE_TAIL))
  }

  /** The assignments are exactly those of the surviving entries, in
      patch order: `id` and `created_at` are never assigned, `undefined`
      values never sent, and argument `i` is the value assigned by SET
      item `i`. */
  lemma UpdateFollowsPatch(id: string, patch: seq<Entry>)
    requires BuildUpdate(id, patch).Some?
    ensures var q := BuildUpdate(id, patch).value;
      && q.sets == Assignments(Filter(patch, Survives))
      && q.args[..|q.sets|] == Values(Filter(patch, Survives))
      && (forall e :: e in Filter(patch, Survives) <==> e in patch && Survives(e))
      && IsSubsequence(Filter(patch, Survives), patch)
  {
    FilterKeeps(patch, Survives);
    var q := BuildUpdate(id, patch).value;
    assert q.args[..|q.sets|] == Values(Filter(patch, Survives));
  }

  /** Neither protected column is ever assigned. */
  lemma ProtectedColumnsUntouched(id: string, patch: seq<Entry>)
    requires BuildUpdate(id, patch).Some?
    ensures "id = ?" !in BuildUpdate(id, patch).value.sets
    ensures "created_at = ?" !in BuildUpdate(id, patch).value.sets
  {
    var kept := Filter(patch, Survives);
    var sets := BuildUpdate(id, patch).value.sets;
    forall i | 0 <= i < |sets|
      ensures sets[i] != "id = ?" && sets[i] != "created_at = ?"
    {
      assert kept[i] in kept;
      var k := kept[i].key;
      assert sets[i][..|k|] == k;
      assert "id = ?"[..2] == "id";
      assert "created_at = ?"[..10] == "created_at";
    }
  }

  /** Number of occurrences of `c` in `s`. */
  function Count(s: string, c: char): nat {
    if |s| == 0 then 0 else (if s[0] == c then 1 else 0) + Count(s[1..], c)
  }

  lemma {:induction false} CountConcat(a: string, b: string, c: char)
    ensures Count(a + b, c) == Count(a, c) + Count(b, c)
  {
    if |a| == 0 {
      assert a + b == b;
    } else {
      assert (a + b)[1..] == a[1..] + b;
      CountConcat(a[1..], b, c);
    }
  }

  lemma {:induction false} CountAbsent(s: string, c: char)
    requires c !in s
    ensures Count(s, c) == 0
  {
    if |s| > 0 {
      assert s[0] != c;
      assert forall j :: 0 <= j < |s[1..]| ==> s[1..][j] == s[j + 1];
      CountAbsent(s[1..], c);
    }
  }

  /** Joining assignments whose keys hold no `?` gives one placeholder
      per assignment. */
  lemma {:induction false} JoinPlaceholders(entries: seq<Entry>)
    requires forall e :: e in entries ==> Count(e.key, '?') == 0
    ensures Count(Join(Assignments(entries), ", "), '?') == |entries|
  {
    if |entries| > 0 {
      assert entries[0] in entries;
      CountConcat(entries[0].key, " = ?", '?');
      assert Count(" = ?", '?') == 1;
      var parts := Assignments(entries);
      if |entries| > 1 {
        assert parts[1..] == Assignments(entries[1..]);
        JoinPlaceholders(entries[1..]);
        CountConcat(parts[0] + ", ", Join(parts[1..], ", "), '?');
        CountConcat(parts[0], ", ", '?');
        assert Count(", ", '?') == 0;
      }
    }
  }

  lemma HeadFree()
    ensures Count(UPDATE_HEAD, '?') == 0
  {
    CountAbsent(UPDATE_HEAD, '?');
  }

  lemma WhereHeadFree()
    ensures Count(WHERE_HEAD, '?') == 0
  {
    CountAbsent(WHERE_HEAD, '?');
  }

  lemma WhereTailFree()
    ensures Count(WHERE_TAIL, '?') == 0
  {
    CountAbsent(WHERE_TAIL, '?');
  }

  /** The fixed text around the SET list holds the one placeholder of
      the WHERE clause. */
  lemma TemplatePlaceholders()
    ensures Count(UPDATE_HEAD, '?') == 0
    ensures Count(UPDATE_TAIL, '?') == 1
  {
    HeadFree();
    TailPlaceholder();
  }

  lemma TailPlaceholder()
    ensures Count(UPDATE_TAIL, '?') == 1
  {
    WhereHeadFree();
    WhereTailFree();
    CountConcat(WHERE_HEAD + "?", WHERE_TAIL, '?');
    CountConcat(WHERE_HEAD, "?", '?');
  }

  /** The statement holds the SET list's placeholders plus the WHERE
      clause's one. */
  lemma {:induction false} StatementPlaceholders(setList: string)
    ensures Count(UPDATE_HEAD + setList + UPDATE_TAIL, '?') == Count(setList, '?') + 1
  {
    TemplatePlaceholders();
    CountConcat(UPDATE_HEAD + setList, UPDATE_TAIL, '?');
    CountConcat(UPDATE_HEAD, setList, '?');
  }

  /** When no column name holds a `?`, the statement has exactly as many
      placeholders as there are arguments. */
  lemma PlaceholdersMatchArgs(id: string, patch: seq<Entry>)
    requires BuildUpdate(id, patch).Some?
    requires forall e :: e in patch ==> Count(e.key, '?') == 0
    ensures Count(BuildUpdate(id, patch).value.sql, '?') == |BuildUpdate(id, patch).value.args|
  {
    var kept := Filter(patch, Survives);
    JoinPlaceholders(kept);
    StatementPlaceholders(Join(Assignments(kept), ", "));
  }

  /** The columns a fetched transaction row is mapped to. */
  const ROW_FIELDS: set<string> :=
    {"id", "created_at", "date", "type", "category", "subcategory", "description",
     "debit", "credit", "notes", "user_id"}

  /** `row.k`: a column the row lacks reads as `undefined`. */
  function Field(row: map<string, Value>, k: string): Value {
    if k in row then row[k] else Undefined
  }

  function IsAmountField(k: string): bool {
    k == "debit" || k == "credit"
  }

  /** The mapping applied to each fetched row: every listed column is
      present, `debit` and `credit` become `Number(...)`, the others pass
      through, and unlisted columns are dropped. */
  function CoerceRow(row: map<string, Value>): (r: map<string, Value>)
    ensures r.Keys == ROW_FIELDS
    ensures forall k :: k in ROW_FIELDS && !IsAmountField(k) ==> r[k] == Field(row, k)
    ensures forall k :: k in ROW_FIELDS && IsAmountField(k) ==> r[k].Num? && r[k].n == ToNumber(Field(row, k))
  {
    map k | k in ROW_FIELDS :: if IsAmountField(k) then Num(ToNumber(Field(row, k))) else Field(row, k)
  }

  /** Mapping an already mapped row changes nothing, and the amounts a
      screen reads with `Number(x) || 0` are the same before and after. */
  lemma CoerceRowIdempotent(row: map<string, Value>)
    ensures CoerceRow(CoerceRow(row)) == CoerceRow(row)
    ensures Coerce(CoerceRow(row)["debit"]) == Coerce(Field(row, "debit"))
    ensures Coerce(CoerceRow(row)["credit"]) == Coerce(Field(row, "credit"))
  {
    ToNumberIdempotent(Field(row, "debit"));
    ToNumberIdempotent(Field(row, "credit"));
    forall k | k in ROW_FIELDS
      ensures CoerceRow(CoerceRow(row))[k] == CoerceRow(row)[k]
    {
      ToNumberIdempotent(Field(row, k));
    }
  }
}

=== FILE: wrappers.dfy ===
/** Optional values and success-or-error results. */
module Wrappers {

  /** A field that a record may or may not carry (`undefined`/`null`). */
  datatype Option<+T> = None | Some(value: T) {

    /** The carried value, or `default` when there is none. */
    function GetOr(default: T): T {
      match this
      case Some(v) => v
      case None => default
    }
  }

  /** The outcome of a validated submission: a value, or what was wrong. */
  datatype Result<+T, +E> = Success(value: T) | Failure(error: E)
}
